=== FILE: README.md ===
# UWB anchor bridge: BLE link, CFG/DATA decoding and web helpers

This project models the logic core of an ESP32 anchor firmware in Dafny. The firmware connects over Bluetooth Low Energy to a UWB ranging module. It exchanges a small command protocol with the module and shows the module's configuration through an HTTP server. Every operation is a pure function or a small method, and its contract and the lemmas about it are proved by the Dafny verifier.

The modules follow the firmware's files:

- `Common` (common.dfy): the machine-width integer types (`byte`, `u16`, `u32`, `i32`, `u40`), `Option`, and the C conversion to `int32_t`.
- `Endian` (endian.dfy): the `rd16be`/`rd32be` readers of main/main.c and the `rd32le`/`rd40le` readers of components/ble/pretty_print.c. Each is defined against a reference big- or little-endian value, with round-trip lemmas in both directions.
- `Tlv` (tlv.dfy): the `[tag, len, value...]` record stream. `Parse` is the walk all three CFG decoders perform.
  - `ParseSpec` characterises the walk on its own.
  - `ParseEncode` and `ParseAppend` are the round trips.
  - `WalkByCursor` and `WalkByIndex` are the two loop shapes the firmware uses: a pointer with a remaining count, and a single index. Each is proved to compute `Parse`.
- `CfgFrames` (cfg_frames.dfy): classification of a CFG notification.
  - It covers the ACK, STATE and heartbeat frames, with encoders proved inverse to the decoders.
  - `ReportMain` is the tag switch of `parse_cfg_notify`; `ReportPretty` is that of `pp_log_cfg`.
  - It also covers the hex dump of unknown tags (as written, and with the buffer terminated first) and the SET payload of `send_cfg_example`.
- `DataPacket` (data_packet.dfy): the 20-byte DATA packet of `pp_log_data`, and the routing of a notification to one decoder or the other.
- `Commands` (commands.dfy): the GET and SET command frames written by `ble_send_get` and `ble_send_set`, with a reader that inverts them.
- `Discovery` (discovery.dfy): the pure parts of peripheral discovery in components/ble/ble.c:
  - the advertised-name filter;
  - the service UUID accepted in either byte order;
  - the fallback handle range;
  - the UUID-then-properties characteristic resolution. Its loop is proved equal to a loop-free specification.
- `BleLink` (ble_link.dfy): the BLE central as a state record advanced by `Step`, one call per GAP or GATTC callback. Every Bluedroid request becomes an `Action`. Whether the stack accepts a call is the boolean input `ok`.
- `HttpBridge` (http_bridge.dfy): the notification handler of components/webserver/http_server.c. It captures ACKs and accumulates records into the `s_cfg` mirror. It also covers the start of `dwm_get_handler`: clearing the mirror and taking the next request id.
- `CText` (cstring.dfy): the `strstr`, `strchr` and `strrchr` searches of the web helpers, on NUL-free strings.
- `WebAuth` (web_auth.dfy): roles, the landing page of each role, the credential table, session-id extraction from the `Cookie` header, session validity, and `require_role`.
- `WebConfig` (web_config.dfy):
  - `find_key` and the `parse_*` number readers, built on 32-bit `strtoul`/`strtol` as ISO C11 section 7.22.1.4 describes them;
  - the partial update of `api_config_post`.
- `WebStatic` (web_static.dfy): the path construction with its 256-byte guard and the extension-to-type table of `root_get`, plus the fixed pages behind `require_role`.

Some behaviour of the code worth knowing before reading the model:

- The firmware has no request correlator. `HttpBridge.OnNotify` takes any ACK whatever its request id (`HttpBridge.AckIgnoresRequestId`). A second request is not refused while one is outstanding. CLOSE and DISCONNECT touch no request state.
- A record that announces more bytes than remain ends the walk silently, and the records before it are kept. `Tlv.Parse` reports this as the `Truncated` stop reason, and the decoders do nothing further with it.
- The `on_ble_notify` of components/webserver/http_server.c is installed only by `ble_http_bridge_init` (http_server.c:114-115), which none of the source files cited here calls; the firmware's own callback is the `on_ble_notify` of main/main.c. `HttpBridge` models the handler anyway, because it is the bridge between notifications and the `/api/dwm_get` page.
- `parse_cfg_notify` in main/main.c is not called by the firmware's own notification callback, which uses `pp_log_cfg`. It is modelled anyway, because `pp_log_cfg` repeats its classification and its tag switch, and the model proves the two agree.
- The shifts `(q[0]<<24)|…` in http_server.c are modelled as the unsigned big-endian value the authors evidently meant, not as C's signed-`int` overflow.

## Model

| member | source | states |
|---|---|---|
| Common.ToInt32 | components/webserver/http_server.c:46-48 | the `(int32_t)` cast is two's complement: the result equals the pattern or the pattern minus 2^32, and it is negative exactly when bit 31 is set |
| Endian.Rd16Be | main/main.c:35 | `rd16be` of two bytes is their big-endian value |
| Endian.Rd32Be | main/main.c:36 | `rd32be` of four bytes is their big-endian value |
| Endian.Rd32Le | components/ble/pretty_print.c:10-12 | `rd32le` of four bytes is their little-endian value |
| Endian.Rd40Le | components/ble/pretty_print.c:13-19 | `rd40le` of five bytes is their little-endian value, and its type bounds it below 2^40 |
| Endian.LeValueBound | components/ble/pretty_print.c:13-19 | an n-byte little-endian value is below 256^n, so five bytes never reach 2^40 |
| Endian.BeRoundTrip | main/main.c:35-36 | writing any value below 256^n as n big-endian bytes and reading them back gives the value |
| Endian.LeRoundTrip | components/ble/pretty_print.c:10-19 | the same round trip for little-endian bytes |
| Endian.BeInverse | main/main.c:35-36 | re-encoding the big-endian value of any byte string at its own length gives the bytes back |
| Endian.LeInverse | components/ble/pretty_print.c:10-19 | the same inverse for little-endian bytes |
| Endian.ReadersInvert | main/main.c:35-36 | each of the four readers is injective: writing back what it read reproduces the 2, 4 or 5 input bytes |
| Tlv.ParseSpec | main/main.c:59-88 | the walk yields well-formed records whose encoding is a prefix of the input; what remains is under 2 bytes (exhausted) or a header announcing more bytes than remain (truncated) |
| Tlv.ParseStep | main/main.c:61-62 | with a complete first record, the walk takes that record (tag, then `len` value bytes) and continues 2+len bytes later, whatever the tag |
| Tlv.ParseAppend | main/main.c:58-89 | walking encoded records followed by any tail yields those records, then the walk of the tail |
| Tlv.ParseEncode | main/main.c:58-89 | concatenated well-formed records walk back to exactly the same records, exhausted |
| Tlv.TrailingByteIgnored | main/main.c:60 | a single byte left after complete records is ignored and is not an error |
| Tlv.TruncationKeepsPrefix | main/main.c:62 | a header whose length exceeds the remaining bytes stops the walk as truncated and keeps every record before it |
| Tlv.WalkByCursor | main/main.c:59-89 | the pointer-and-remaining-count loop produces exactly the records and stop reason of `Parse`, reading no byte past `n` |
| Tlv.WalkByIndex | components/ble/pretty_print.c:52-90 | the single-index loop of `pp_log_cfg` produces exactly the records and stop reason of `Parse` |
| CfgFrames.EncodeAck | main/main.c:41-46 | every ACK has a 6-byte `1,0x81` frame that decodes back to it: request id big-endian at 2-3, status at 4, applied at 5 |
| CfgFrames.EncodeState | main/main.c:47-53 | every STATE snapshot has a 17-byte `1,0x90` frame that decodes back to it, with the field offsets 2, 3, 5, 9, 11 and 13 |
| CfgFrames.EncodeHeartbeat | components/ble/pretty_print.c:28-31 | every heartbeat has a 13-byte frame with the six fixed marker bytes that decodes back to it |
| CfgFrames.FixedFramesInvert | main/main.c:41-53 | every ACK, STATE or heartbeat frame is the encoding of what it decodes to |
| CfgFrames.ClassifyMain | main/main.c:41-59 | a frame is an ACK exactly when it has the ACK shape and a STATE exactly when it has the STATE shape; `parse_cfg_notify` has no heartbeat case; anything else is the record walk |
| CfgFrames.ClassifyPretty | components/ble/pretty_print.c:28-49 | the heartbeat shape is recognised before anything else; any other input is classified exactly as `parse_cfg_notify` does |
| CfgFrames.ReportMain | main/main.c:63-87 | a known tag at a width other than its fixed one prints nothing; a known tag at its width (always 1, 2 or 4) is reported with its big-endian value, read as `int32_t` for the three signed tags; an unknown tag is reported with its length |
| CfgFrames.ReportPretty | components/ble/pretty_print.c:59-88 | known tags are reported exactly as `parse_cfg_notify` reports them; unknown tags are reported with at most the 42 value bytes the dump buffer holds |
| CfgFrames.FieldValueUnsigned | main/main.c:64-85 | an unsigned field's value is the big-endian value of its bytes |
| CfgFrames.ReportUnsignedRoundTrip | main/main.c:64-85 | any value that fits an unsigned tag's width, written big-endian, is reported as that tag with that value |
| CfgFrames.ReportSignedRoundTrip | main/main.c:71-73 | any `int32_t` written as its two's-complement pattern under TX/RX antenna delay or bias ticks is reported as the same signed value |
| CfgFrames.DumpLoop | components/ble/pretty_print.c:83-84 | the dump loop writes the first min(len, 42) value bytes, three characters each, at most 126 characters |
| CfgFrames.HexDump | components/ble/pretty_print.c:82-87 | as written: a nonempty value leaves a terminated text of 3·min(len, 42) − 1 characters, under 128; a value of length 0 leaves the buffer unterminated |
| CfgFrames.EmptyUnknownReachesDump | components/ble/pretty_print.c:53-56 | the notification `[0x50, 0x00]` walks to one record of the unknown tag 0x50 with an empty value, and the tag switch dumps it |
| CfgFrames.HexDumpTerminated | components/ble/pretty_print.c:82-87 | with `hex[0] = 0` written first, the text is always terminated, empty for an empty value, and shorter than the 128-byte buffer |
| CfgFrames.HeartbeatIsStream | components/ble/pretty_print.c:28 | every heartbeat frame is also a well-formed stream of tags 1, 2 and 3 that walks to exhaustion |
| CfgFrames.HeartbeatFastPathAgrees | components/ble/pretty_print.c:28-31 | the status, uptime and sync period the fast path extracts equal what the stream branch would report for tags 1, 2 and 3 |
| CfgFrames.ExamplePayloadEncodes | main/main.c:103-106 | the bytes of `send_cfg_example` are the encoding of NETWORK_ID=[0,2] and HB_MS=[0x13,0x88] |
| CfgFrames.ExamplePayloadWalk | main/main.c:102-107 | the example payload walks back to exactly those two records |
| CfgFrames.ExampleFieldsDecode | main/main.c:68-75 | those records are reported as NETWORK_ID = 2 and HB_MS = 5000 |
| Commands.RequestIdBytes | components/ble/ble.c:382 | the header bytes `id>>8, (uint8_t)id` are the big-endian form of the request id |
| Commands.Encode | components/ble/ble.c:396-402 | a command frame is a 5-byte header followed by the payload |
| Commands.ParseEncode | components/ble/ble.c:379-402 | every command survives encoding and reading back |
| Commands.EncodeParse | components/ble/ble.c:379-402 | every frame that reads as a command is that command's encoding |
| Commands.GetFrame | components/ble/ble.c:382 | the GET frame has 5 bytes and reads back as GET with the request id and reserved byte 0 |
| Commands.SetFrame | components/ble/ble.c:396-402 | the SET frame is 5+len bytes, carries the payload unchanged from byte 5, and reads back as SET with the id and reserved byte 0xFF |
| DataPacket.Encode | components/ble/pretty_print.c:97-102 | every packet has a 20-byte wire form that starts with 0xAB |
| DataPacket.Decode | components/ble/pretty_print.c:95-102 | a buffer decodes exactly when it has 20 bytes and starts with 0xAB; a decoded packet re-encodes to the same first 17 bytes |
| DataPacket.DecodeEncode | components/ble/pretty_print.c:97-102 | every packet, fields little-endian at 4, 8 and 12, survives encoding and decoding |
| DataPacket.TrailingBytesIgnored | components/ble/pretty_print.c:95-102 | two packets that agree on their first 17 bytes decode alike; bytes 17-19 are never read |
| DataPacket.ExamplePacket | components/ble/pretty_print.c:100-101 | the identifier bytes `01 00 00 00` and `02 00 00 00` are read little-endian as anchor 1 and tag 2 |
| DataPacket.Route | main/main.c:92-98 | CFG notifications go to the CFG classifier; DATA notifications decode exactly when they have the packet shape |
| Discovery.AdvNameMatch | components/ble/ble.c:113-119 | an advertisement matches exactly when the filter is empty or the complete or short local name equals it in length and bytes |
| Discovery.ServiceMatchEitherOrder | components/ble/ble.c:257 | a 128-bit UUID is accepted as the service exactly when its byte reversal is |
| Discovery.ServiceFormsReversed | components/ble/ble.c:59-60 | the two service UUID constants are byte reversals of each other |
| Discovery.EffectiveRange | components/ble/ble.c:266-271 | the range after search has no zero bound; a range without zero bounds is kept, anything else becomes 0x0001..0xFFFF |
| Discovery.FirstData | components/ble/ble.c:303-308 | the first notify+read characteristic, or none |
| Discovery.FirstCfg | components/ble/ble.c:309-312 | the first notify characteristic that can be written, with or without response, skipping a given one |
| Discovery.FallbackMeetsSpec | components/ble/ble.c:303-314 | the property loop fills a missing DATA handle from the first notify+read characteristic, and a missing CFG handle from the first writable notify characteristic other than that one |
| Discovery.FallbackNeverShares | components/ble/ble.c:305-312 | one characteristic never fills both the DATA and the CFG role |
| Discovery.CharByUuid | components/ble/ble.c:276-293 | a lookup by UUID in the range succeeds exactly when such a characteristic exists in the range, and returns one of them |
| Discovery.CharsInRange | components/ble/ble.c:297-302 | the enumerated characteristics are exactly the cached ones inside the range |
| Discovery.CharsInRangeAppend | components/ble/ble.c:297-302 | the enumeration keeps the cache order: enumerating two parts of the cache gives the two lists one after the other |
| Discovery.ByUuid | components/ble/ble.c:276-293 | step 1: a handle is had exactly when its UUID lookup succeeds, and is then that lookup's handle; otherwise it keeps its old value |
| Discovery.Resolve | components/ble/ble.c:273-318 | the result is the UUID step followed, when a handle is missing and the list could be allocated, by the loop-free fallback specification; DATA and CFG are each found exactly when their UUID lookup or the fallback finds them; an unresolved handle keeps its old value |
| BleLink.CString | components/ble/ble.c:142 | the C string held in a buffer is its longest NUL-free prefix |
| BleLink.Start | components/ble/ble.c:139-147 | the filter kept is the longest NUL-free prefix of the given one of at most 31 bytes (a filter longer than 31 bytes is cut to its first 31), or empty with no filter; the link starts idle with every handle 0 |
| BleLink.StartThenRegistered | components/ble/ble.c:224-228 | after `ble_start`, the registration callback sets the local MTU and asks for scan parameters, and changes nothing else |
| BleLink.StartFilterMatches | components/ble/ble.c:113-119 | a filter of at most 31 bytes matches exactly the advertisers whose complete or short name is that filter |
| BleLink.LongFilterMatchesCutName | components/ble/ble.c:139-147 | a filter longer than 31 bytes matches the name cut to 31 bytes and not the whole name |
| BleLink.StartScanSafe | components/ble/ble.c:71-97 | it refuses with INVALID_STATE and no change while connecting or while a scan is active or pending; with parameters unset it only asks for them; it never stops a scan; a start becomes pending only when the stack accepts the start |
| BleLink.OpenSafe | components/ble/ble.c:99-107 | an active scan is stopped even when the open is refused; the open is issued only when not connecting; afterwards the link is connecting exactly when the stack accepted it |
| BleLink.CccEnablesNotificationsOnly | components/ble/ble.c:213-214 | the CCC value written is the little-endian 16-bit value 1: notifications on, indications off (Bluetooth Core Specification v5.x, Vol 3, Part G, section 3.3.3.3) |
| BleLink.OnSearchComplete | components/ble/ble.c:265-344 | the effective range is taken; DATA and CFG are what `Resolve` gives over it; each resolved handle with a CCC is subscribed; the link is closed exactly when DATA or CFG is still 0; only the handles change |
| BleLink.FoundCcc | components/ble/ble.c:321-338 | a CCC is looked up only for a nonzero handle |
| BleLink.SearchHandles | components/ble/ble.c:265-338 | the handles after search: the effective range, DATA and CFG as `Resolve` gives them over it, and a CCC handle replaced exactly when its descriptor is found |
| BleLink.SearchCompleteSubscribesBoth | components/ble/ble.c:265-344 | when both characteristics are found by UUID and both have a CCC descriptor, SEARCH_CMPL keeps exactly those handles, subscribes to DATA then CFG, and does not close |
| BleLink.SearchActions | components/ble/ble.c:320-343 | the requests after search: register and enable the CCC for each found descriptor, then close exactly when a handle is missing |
| BleLink.Teardown | components/ble/ble.c:361-369 | CLOSE and DISCONNECT leave the link disconnected, not connecting, with all six handles 0 and every other field but the pending flag kept, and go back to scanning through `start_scan_safe(0)`: parameters first when they are not set, a new start (pending iff the stack accepts it) when no scan runs or is starting, nothing otherwise |
| BleLink.StepKeepsScanFlagsExclusive | components/ble/ble.c:175-205 | no callback makes a scan both active and pending |
| BleLink.ScanActiveOnlyOnSuccess | components/ble/ble.c:180-188 | a scan becomes active only through a successful START_COMPLETE |
| BleLink.PendingOnlyByAcceptedStart | components/ble/ble.c:180-205 | a start becomes pending only through a start request the stack accepted; both completions clear it; STOP_COMPLETE clears the active flag |
| BleLink.OpenOnlyWhenIdle | components/ble/ble.c:190-199 | an open is issued only for an inquiry result that passes the name filter while not connecting, and the link is then connecting exactly when the stack accepted it |
| BleLink.NoOpenOffScan | components/ble/ble.c:172-369 | no callback other than a scan result issues an open |
| BleLink.NoOpenWhileScanning | components/ble/ble.c:224-248 | PARAM_SET, REG and OPEN issue no open |
| BleLink.NoOpenAfterSearchOrClose | components/ble/ble.c:265-369 | SEARCH_CMPL, CLOSE and DISCONNECT issue no open |
| BleLink.StartScanOnlyWhenIdle | components/ble/ble.c:82-95 | a scan start is issued only when not connecting, with parameters set and no scan running, and it is pending afterwards exactly when accepted |
| BleLink.TeardownForgetsLink | components/ble/ble.c:361-369 | from any state, CLOSE and DISCONNECT leave the link disconnected, not connecting, with every handle cleared, keep the name filter, parameters flag, callback and scan state, and issue exactly the requests of `start_scan_safe(0)` on the cleared link |
| BleLink.FailedOpenRescans | components/ble/ble.c:242-247 | a failed OPEN clears the attempt and goes back to scanning: parameters first if unset, else a start if no scan runs or is starting |
| BleLink.OpenedStartsDiscovery | components/ble/ble.c:233-241 | a successful OPEN connects with every handle cleared, then asks for the MTU and the services, in that order |
| BleLink.NotifyRoutes | components/ble/ble.c:347-351 | a notification is handed to the callback, marked CFG exactly when it comes from the CFG handle |
| BleLink.SendGet | components/ble/ble.c:379-389 | GET is refused with INVALID_STATE unless connected with a CFG handle; otherwise exactly one write of the GET frame, which reads back as that command |
| BleLink.SendSet | components/ble/ble.c:391-411 | SET writes exactly when connected with a CFG handle, the payload is at most 240 bytes and the buffer is allocated; the errors are INVALID_STATE, then INVALID_SIZE, then NO_MEM, each in its case; the frame written reads back as that SET |
| BleLink.SetFrameLength | components/ble/ble.c:396-397 | a SET frame is the 5-byte header and the payload, so at most 245 bytes |
| BleLink.MaxSetOverflowsAttWrite | components/ble/ble.c:377 | a 240-byte payload, which `max_write_payload` allows, makes a 245-byte write: one byte more than an ATT Write Request carries at MTU 247 |
| BleLink.SendSetFitted | components/ble/ble.c:391-411 | with the size check at 239 bytes, SET behaves as `ble_send_set` for every payload up to 239, refuses longer ones with INVALID_SIZE, and every frame it sends fits one ATT Write Request at MTU 247 |
| HttpBridge.WidthsAgreeWithLog | components/webserver/http_server.c:41-50 | every tag the bridge shares with the log decoders is taken at the same width |
| HttpBridge.SignednessAgreesWithLog | components/webserver/http_server.c:43-48 | of the 4-byte fields, all but ANCHOR_ID are read as signed, as the log decoders do |
| HttpBridge.ApplyRecord | components/webserver/http_server.c:40-52 | a known tag at its width sets exactly its own have-flag; any other record leaves the mirror unchanged |
| HttpBridge.ApplyRecordStores | components/webserver/http_server.c:41-50 | a record that applies stores the value the log decoder reports for it and leaves the other nine fields unchanged |
| HttpBridge.SkipIsIrrelevant | components/webserver/http_server.c:38 | skipping the first tag-0x00 record changes nothing, since tag 0x00 has no arm in the switch |
| HttpBridge.ApplyAllMonotone | components/webserver/http_server.c:40-52 | have-flags only go from false to true, and the spare flag `have[10]` is never set |
| HttpBridge.ApplyAllSetsFlags | components/webserver/http_server.c:40-52 | a field's have-flag ends up set exactly when it was set before or some record applies to it |
| HttpBridge.ApplyAllSnoc | components/webserver/http_server.c:34-54 | one more record at the end is skipped exactly when it is the first tag-0x00 record, and applied otherwise |
| HttpBridge.TakeRecord | components/webserver/http_server.c:38-53 | one pass of the loop body keeps the mirror equal to the fold of the records seen so far |
| HttpBridge.Accumulate | components/webserver/http_server.c:34-54 | the accumulation loop stores exactly the records of the walk, in order, with the first tag-0x00 skip |
| HttpBridge.OnNotify | components/webserver/http_server.c:21-58 | a DATA, null or empty notification changes nothing; an ACK records status and applied and signals; the TLV signal is given exactly when NETWORK_ID, ANCHOR_ID or HB_MS has been seen; have-flags are never cleared; the request id is untouched |
| HttpBridge.AckIgnoresRequestId | components/webserver/http_server.c:26-31 | changing the request-id bytes of an ACK does not change its effect |
| HttpBridge.NotifyAppliesWalk | components/webserver/http_server.c:33-54 | a CFG notification that is not an ACK stores exactly the records of its walk into the mirror |
| HttpBridge.BeginGet | components/webserver/http_server.c:63-69 | a GET clears the mirror, so no TLV signal is pending, increments the request id modulo 2^16, and sends GET with that id |
| HttpBridge.RequestIdsAdvance | components/webserver/http_server.c:68 | n GETs in a row advance the request id by n modulo 2^16 |
| CText.CPrefix | components/webserver/webserver.cpp:210-216 | the C string a zero-filled buffer holds is its prefix up to the first NUL |
| CText.FindSub | components/webserver/webserver.cpp:67 | `strstr` finds the first occurrence, or reports that none exists |
| CText.IndexFrom | components/webserver/webserver.cpp:176 | `strchr` finds the first occurrence of the character at or after a position, or reports that none exists |
| CText.LastIndex | components/webserver/webserver.cpp:341 | `strrchr` finds the last occurrence of the character, or reports that none exists |
| WebAuth.UriForRole | components/webserver/webserver.cpp:41-48 | a role is sent to `/login` exactly when it is ROLE_NONE |
| WebAuth.UriForRoleInjective | components/webserver/webserver.cpp:41-48 | different roles land on different pages |
| WebAuth.RequireRole | components/webserver/webserver.cpp:268-282 | the request is admitted exactly when the role is at least the one needed, in the order NONE < DIAG < BLE < ROOT; a refused `/api/` or `/auth/` URI gets 401, any other a redirect to `/login` |
| WebAuth.LandingPageAdmitsRole | components/webserver/webserver.cpp:41-48 | every role's landing page is gated exactly when the role is not NONE, and then it admits that role |
| WebAuth.GateMonotone | components/webserver/webserver.cpp:270 | a higher role is admitted wherever a lower one is |
| WebAuth.CheckUserIn | components/webserver/webserver.cpp:52-59 | the result is the role of the first entry whose user and password both match, skipping the nameless sentinel, else ROLE_NONE |
| WebAuth.CheckUserTable | components/webserver/webserver.cpp:34-40 | exactly the pairs diag/diag, admin/admin and root/root get in, as DIAG, BLE and ROOT |
| WebAuth.TakeSid | components/webserver/webserver.cpp:70-72 | the session id copied is at most 32 characters, has no `;`, and ends at a `;`, at the end of the header or at 32 characters |
| WebAuth.ExtractSid | components/webserver/webserver.cpp:67-72 | there is no session id exactly when the header has no `SID=`; otherwise it is what follows the first `SID=` |
| WebAuth.FirstGrant | components/webserver/webserver.cpp:76-79 | the role of the first session with a nonempty id equal to the cookie's that has not expired, else ROLE_NONE |
| WebAuth.RoleFromCookie | components/webserver/webserver.cpp:61-80 | without `SID=` no role is granted; with it, the role is that of the first live session with the extracted id, and any role granted belongs to a stored session |
| WebAuth.RoleFromAuth | components/webserver/webserver.cpp:130-139 | a session cookie wins; otherwise decoded Basic credentials are checked against the table; with neither, ROLE_NONE |
| WebAuth.Login | components/webserver/webserver.cpp:97-109 | a login succeeds exactly for valid credentials; it then overwrites session slot 0 with the new id, the role and an expiry 86400 s later (wrapping at 2^32), and returns the `SID=…; Path=/; HttpOnly; Max-Age=86400` cookie for it |
| WebAuth.TakeSidPrefix | components/webserver/webserver.cpp:72 | the copy keeps any `;`-free run of at most 32 characters that ends at a `;`, at the end of the header or at 32 characters |
| WebAuth.CookieNamesSid | components/webserver/webserver.cpp:108 | the `Set-Cookie` value a login sends reads back as the session id it carries |
| WebAuth.LoginCookieGrantsRole | components/webserver/webserver.cpp:100-108 | the login round trip: until it expires, the cookie a login hands out grants the role of the credentials |
| WebConfig.Magnitude | components/webserver/webserver.cpp:183 | the digit run read at the start of the text, after a `0x` or `0X` prefix only in base 16 |
| WebConfig.ScanNumber | components/webserver/webserver.cpp:183-185 | the scan under `strtoul`/`strtol`: a text that starts with a sign is negative exactly for `-` and continues with the magnitude; one that starts with neither a sign nor white space is the magnitude; an empty text scans as 0 |
| WebConfig.ScanSkipsSpace | components/webserver/webserver.cpp:183-185 | leading white space is skipped one character at a time before the sign and the digits |
| WebConfig.StrToUL | components/webserver/webserver.cpp:183-185 | `strtoul` with a 32-bit `unsigned long`: an overflow gives ULONG_MAX, and a negative sign negates modulo 2^32 |
| WebConfig.StrToL | components/webserver/webserver.cpp:192-193 | `strtol` with a 32-bit `long`: the signed value, clamped to LONG_MIN..LONG_MAX |
| WebConfig.SkipSpaces | components/webserver/webserver.cpp:177 | the index of the first character that is not a space |
| WebConfig.FindKey | components/webserver/webserver.cpp:173-179 | a value is found exactly when the key occurs and a `:` follows its first occurrence; the value starts at the first character after that `:` that is not a space (the opening quote of a quoted value), or at the end of the body |
| WebConfig.ParseU32 | components/webserver/webserver.cpp:180-188 | a number is read exactly when the key is found: hexadecimal after an opening quote, decimal otherwise |
| WebConfig.ParseI32 | components/webserver/webserver.cpp:189-195 | as `parse_u32`, with `strtol` |
| WebConfig.ParseU16 | components/webserver/webserver.cpp:196-198 | the low 16 bits of the 32-bit value, present exactly when that value is |
| WebConfig.ParseU8 | components/webserver/webserver.cpp:199-201 | the low 8 bits of the 32-bit value, present exactly when that value is |
| WebConfig.ApplyPost | components/webserver/webserver.cpp:219-228 | a field whose key is absent from the body is unchanged; a present key sets its field to the number read: NETWORK_ID, ZONE_ID, HB_MS and PHY_SFDTO take its low 16 bits, LOG_LEVEL and PHY_CH its low 8 bits, ANCHOR_ID all 32 bits, and TX_ANT_DLY, RX_ANT_DLY and BIAS_TICKS the `strtol` value |
| WebConfig.ApplyPostIdempotent | components/webserver/webserver.cpp:219-228 | posting the same body twice has the effect of posting it once |
| WebConfig.ApplyPostNoKeys | components/webserver/webserver.cpp:219-228 | a body without a double quote names no key and leaves the configuration unchanged |
| WebConfig.NoQuoteNoKey | components/webserver/webserver.cpp:173-175 | a quoted key cannot be found in a body that has no double quote |
| WebConfig.ConfigPost | components/webserver/webserver.cpp:204-233 | the update is saved exactly when the role is BLE or higher, the body is nonempty and it arrived whole; a role below BLE is refused as unauthorised, an empty body is answered 400 and a failed receive 500, in that order, and none of these changes anything; a save applies the posted text |
| WebConfig.DecimalRoundTrip | components/webserver/webserver.cpp:185 | any 32-bit value written in decimal reads back in base 10 when no digit follows |
| WebConfig.HexRoundTrip | components/webserver/webserver.cpp:183 | any 32-bit value written as `0x` and hexadecimal digits reads back in base 16 when no hex digit follows |
| WebConfig.PostedValue | components/webserver/webserver.cpp:180-188 | in a body `{key:value…`, the key's value starts right after the colon, and a quoted hex or plain decimal number there is the value `parse_u32` returns |
| WebConfig.PostHeartbeat | components/webserver/webserver.cpp:222 | posting one decimal heartbeat period sets HB_MS to exactly that period |
| WebStatic.StaticPath | components/webserver/webserver.cpp:319-332 | `/` names the login page; any other URI names `/spiffs` followed by the URI, present exactly when the joined length is below 256, so the path fits its buffer |
| WebStatic.StaticPathInjective | components/webserver/webserver.cpp:329-331 | distinct URIs other than `/` name distinct files |
| WebStatic.TypeOfExtension | components/webserver/webserver.cpp:340-349 | a known extension has the type of the table; anything else is `text/plain` |
| WebStatic.ContentType | components/webserver/webserver.cpp:340-349 | a path without a dot is `text/plain`; every type chosen is `text/plain` or one of the table's |
| WebStatic.ExtensionDecides | components/webserver/webserver.cpp:341 | only the text from the last dot decides the type, whatever precedes it |
| WebStatic.PrefixKeepsType | components/webserver/webserver.cpp:320-341 | the mount prefix has no dot, so the type of `/spiffs`+URI is the type of the URI |
| WebStatic.RootGet | components/webserver/webserver.cpp:299-363 | a signed-in caller is redirected to its landing page; guarded pages redirect a visitor to `/login`; a too-long URI gets 414; a missing file 404; otherwise the file is served with its path's type |
| WebStatic.RootRedirectAdmits | components/webserver/webserver.cpp:302-307 | the page a signed-in caller is redirected to lets that caller in |
| WebStatic.ServedTypeFollowsUri | components/webserver/webserver.cpp:319-349 | a served file's type is the type of the requested URI's own extension |
| WebStatic.PageGet | components/webserver/webserver.cpp:366-389 | a fixed page is served as HTML exactly when the role passes its gate and the file exists; a refusal is a redirect to `/login` |
| WebStatic.LandingPageServes | components/webserver/webserver.cpp:366-389 | every role can open its own landing page once the file exists |

## Left out

- `ble_start`'s NVS initialisation and controller and Bluedroid bring-up (components/ble/ble.c:149-168) are foreign stack calls. Only the filter copy and the callback it stores are modelled.
- The `vTaskDelay` pauses before a rescan (components/ble/ble.c:245, 367) are timing. The rescan request is an action with no duration.
- The ATT MTU log line (CFG_MTU) and the write-completion log lines only log, so they leave the state alone.
- The Bluedroid calls themselves (scan, open, MTU request, service search, cache lookups, descriptor writes) are abstract. Their success is the boolean input of `Step`, and the GATT cache after service search is an input list.
- The semaphores, timeouts and sleep of `dwm_get_handler` and the cJSON response it builds (components/webserver/http_server.c:64-103) are concurrency and JSON formatting. Only the clearing of `s_cfg`, the request-id increment and the GET frame are modelled. The TLV-ready signal is modelled as the value `OnNotify` returns.
- The `ESP_LOGI`/`snprintf` texts are not modelled. Decoders return decoded values, and the hex dump is modelled by which bytes it shows and whether its text is terminated, and at what length.
- `decode_basic` (mbedtls base64) is a foreign library call. `RoleFromAuth` takes the decoded credentials, or their absence, as input.
- `mk_sid` (`esp_random`) is randomness. `Login` takes the session id as input.
- The clock `esp_timer_get_time` is a parameter `now`.
- The body parsing of `auth_login_post` (its `getstr` lambda) and the receive loops of both POST handlers are network I/O. The receive outcome is an input, and the credentials are given already extracted.
- `send_file` and the file streaming of `root_get` are file I/O. The file system is the set of paths that open, and a served response names the file and its type.
- `api_status_get`, `state_str` and `json_cfg_print` (components/webserver/webserver.cpp:143-161, 235-253) are float and printf formatting. `api_config_get` is only a gate in front of them.
- `webserver_start`, `webserver_stop` and `http_register_routes` are handler registration with the HTTP server. The route table is the constant `WebAuth.GatedGets`.
- The ethernet component, `main/globals.c`, `app_main`, `fs_mount` and `nvs_init_or_erase` are hardware setup and boot plumbing; tools/export_head.py is a packaging script. None of these is part of this model.
- BleLink.SendSet: the null `tlv` pointer with a nonzero `len` (components/ble/ble.c:402), which writes uninitialised bytes, is not modelled, because the payload is always a sequence of `len` bytes.
- HttpBridge.OnNotify: the `(q[0]<<24)` shifts are the unsigned big-endian value, not C's undefined signed overflow for a first byte of 0x80 or more.
- WebConfig.PostedValue: the posted number is stated for a body of the shape `{key:value…`. Where the key sits later in a JSON object, the same `FindKey`/`ParseU32` contracts apply, but no separate lemma states it.
- WebConfig.StrToUL: the `end` pointer and `errno` are not modelled, because the callers ignore both.
- BleLink.SendSetFitted: the bound is against the local MTU of 247. The MTU the peer settles on (CFG_MTU) is only logged and is not tracked, so a smaller negotiated MTU, which would lower the limit further, is not modelled.
- CfgFrames.HexDump: what `%s` prints from an unterminated buffer is undefined, so the model says only that the buffer is unterminated.

## Findings

| source | as written | input that shows it | evidently intended | confidence | as-written member | corrected member |
|---|---|---|---|---|---|---|
| components/ble/pretty_print.c:83-86 | for an unknown tag of length 0 the dump loop never runs, `o` stays 0, `hex[o-1] = 0` is skipped, and the uninitialised, unterminated 128-byte buffer is printed with `%s` | the CFG notification `[0x50, 0x00]` (`CfgFrames.EmptyUnknownReachesDump`) | an empty dump text, as when `hex[0] = 0` is written before the loop | not executed | CfgFrames.HexDump | CfgFrames.HexDumpTerminated |
| components/ble/ble.c:377 | `max_write_payload` allows 240 payload bytes, so a SET frame can be 245 bytes, one more than the 244 (ATT_MTU − 3) that a single ATT Write Request carries at MTU 247 (Bluetooth Core Specification v5.x, Vol 3, Part F, section 3.4.5.1). The comment `MTU 247 - 7` points to a miscount. Whether the write then fails, or the stack sends it as a prepared (long) write that the peer must support, depends on Bluedroid and the peer, which are not part of this model | a SET with a 240-byte payload on a connected link (`BleLink.MaxSetOverflowsAttWrite`) | a limit of 239 bytes: 247 less the 3-byte ATT header and the 5-byte frame header | not executed; the consequence depends on the stack | BleLink.SendSet | BleLink.SendSetFitted |

=== FILE: ble_link.dfy ===
/** The BLE central of components/ble/ble.c as a pure state machine.

    The module's static globals form one `Link` record. Each GAP or GATTC
    callback is a function from the record and an `Event` to a new record
    and the Bluedroid calls it issues (`Action`s), in order. Whether the one
    fallible call of a handler succeeds (scan parameters, start scanning,
    open, the characteristic-list allocation) is the input `ok`. */
module BleLink {
  import opened Common
  import opened Endian
  import opened Discovery
  import Commands

  /** `g_start_handle` .. `g_cfg_ccc_h`. */
  datatype GattHandles = GattHandles(start: u16, end: u16, data: u16, cfg: u16, dataCcc: u16, cfgCcc: u16)

  /** `reset_gatt_state`. */
  const NoHandles := GattHandles(0, 0, 0, 0, 0, 0)

  /** Longest name filter kept: `g_name_filter[32]` less its terminator. */
  const MaxFilter := 31

  /** `esp_ble_gatt_set_local_mtu(247)`. */
  const LocalMtu := 247

  datatype Link = Link(
    connecting: bool,
    connected: bool,
    paramsSet: bool,
    scanActive: bool,
    scanPending: bool,
    handles: GattHandles,
    connId: u16,
    peer: seq<byte>,
    addrType: byte,
    nameFilter: seq<byte>,
    hasCallback: bool)

  datatype Action =
    | SetScanParams
    | StartScanning(durationSec: nat)
    | StopScanning
    | SetLocalMtu(mtu: nat)
    | Open(peer: seq<byte>, addrType: byte)
    | RequestMtu
    | SearchServices
    | RegisterForNotify(charHandle: u16)
    | WriteDescriptor(handle: u16, value: seq<byte>)
    | CloseLink
    | Deliver(value: seq<byte>, fromCfg: bool)
    | WriteCharacteristic(handle: u16, value: seq<byte>)

  /** The `esp_err_t` values the module returns. */
  datatype Rc = Ok | InvalidState | InvalidSize | NoMem | StackError

  datatype Call = Call(link: Link, actions: seq<Action>, rc: Rc)

  function RcOf(ok: bool): Rc
  {
    if ok then Ok else StackError
  }

  /** The bytes of a C string held in `b`: everything before the first NUL,
      or all of `b` when it holds none. */
  function CString(b: seq<byte>): (t: seq<byte>)
    ensures t <= b && 0 !in t
    ensures |t| < |b| ==> b[|t|] == 0
  {
    if b == [] || b[0] == 0 then []
    else
      var t := CString(b[1..]);
      assert [b[0]] + t <= b by { assert b == [b[0]] + b[1..]; }
      [b[0]] + t
  }

  /** The state `ble_start` leaves before the stack's first callback: the
      filter is copied with `strncpy` into 32 bytes and the last one is set
      to NUL, so at most 31 bytes up to the first NUL are kept; a missing
      filter is empty. */
  function Start(filter: Option<seq<byte>>, hasCallback: bool): (st: Link)
    ensures |st.nameFilter| <= MaxFilter && 0 !in st.nameFilter
    ensures filter.Some? ==> st.nameFilter <= filter.value
    ensures filter.Some? && |st.nameFilter| < MaxFilter ==>
      |st.nameFilter| == |filter.value| || filter.value[|st.nameFilter|] == 0
    ensures filter.Some? && 0 !in filter.value && |filter.value| <= MaxFilter ==>
      st.nameFilter == filter.value
    ensures filter.Some? && |filter.value| > MaxFilter && 0 !in filter.value[..MaxFilter] ==>
      st.nameFilter == filter.value[..MaxFilter]
    ensures filter.None? ==> st.nameFilter == []
    ensures !st.connecting && !st.connected && !st.scanActive && !st.scanPending && !st.paramsSet
    ensures st.handles == NoHandles && st.hasCallback == hasCallback
  {
    var f := if filter.None? then [] else CString(filter.value);
    var kept := if |f| <= MaxFilter then f else f[..MaxFilter];
    var st := Link(false, false, false, false, false, NoHandles, 0xFFFF, [0, 0, 0, 0, 0, 0], 0, kept, hasCallback);
    if filter.Some? && |filter.value| > MaxFilter && 0 !in filter.value[..MaxFilter] then
      NulFreePrefix(filter.value, MaxFilter);
      st
    else st
  }

  /** The C string of a buffer whose first `n` bytes hold no NUL starts
      with those bytes. */
  lemma NulFreePrefix(b: seq<byte>, n: nat)
    requires n <= |b| && 0 !in b[..n]
    ensures |CString(b)| >= n && CString(b)[..n] == b[..n]
  {
  }

  /** `start_scan_safe(0)`: refuses while connecting; asks for scan
      parameters first if they are not set; refuses while a scan runs or is
      being started; otherwise starts scanning and marks the start pending
      when the call is accepted. */
  function StartScanSafe(st: Link, ok: bool): (c: Call)
    ensures st.connecting ==> c == Call(st, [], InvalidState)
    ensures !st.connecting && !st.paramsSet ==> c == Call(st, [SetScanParams], RcOf(ok))
    ensures !st.connecting && st.paramsSet && (st.scanActive || st.scanPending) ==>
      c == Call(st, [], InvalidState)
    ensures StartScanning(0) in c.actions <==>
      !st.connecting && st.paramsSet && !st.scanActive && !st.scanPending
    ensures StopScanning !in c.actions
    ensures forall a :: a in c.actions ==> a == SetScanParams || a == StartScanning(0)
    ensures c.link == st.(scanPending := c.link.scanPending)
    ensures c.link.scanPending <==> st.scanPending || (StartScanning(0) in c.actions && ok)
  {
    if st.connecting then Call(st, [], InvalidState)
    else if !st.paramsSet then Call(st, [SetScanParams], RcOf(ok))
    else if st.scanActive || st.scanPending then Call(st, [], InvalidState)
    else
      // The stop branch of the source: unreachable, since an active scan
      // was refused just above.
      var stop := if st.scanActive then [StopScanning] else [];
      Call(st.(scanPending := if ok then true else st.scanPending),
           stop + [StartScanning(0)], RcOf(ok))
  }

  /** `gattc_open_safe`: an active scan is stopped first, even when the open
      is then refused because another one is in progress. */
  function OpenSafe(st: Link, peer: seq<byte>, addrType: byte, ok: bool): (c: Call)
    ensures StopScanning in c.actions <==> st.scanActive
    ensures Open(peer, addrType) in c.actions <==> !st.connecting
    ensures st.connecting ==> c.link == st && c.rc == InvalidState
    ensures !st.connecting ==> c.link.connecting == ok && c.rc == RcOf(ok)
    ensures c.link == st.(connecting := c.link.connecting)
  {
    var stop := if st.scanActive then [StopScanning] else [];
    if st.connecting then Call(st, stop, InvalidState)
    else Call(st.(connecting := ok), stop + [Open(peer, addrType)], RcOf(ok))
  }

  datatype Event =
    | ScanParamSetComplete(success: bool)
    | ScanStartComplete(success: bool)
    | ScanResult(inquiry: bool, names: AdvNames, peer: seq<byte>, peerType: byte)
    | ScanStopComplete
    | Registered
    | Opened(success: bool, connId: u16)
    | MtuConfigured
    | SearchResult(uuid: Uuid, start: u16, end: u16)
    | SearchComplete(db: seq<DbChar>)
    | Notified(handle: u16, value: seq<byte>)
    | DescriptorWritten
    | CharacteristicWritten
    | Closed
    | Disconnected

  datatype Out = Out(link: Link, actions: seq<Action>)

  /** `enable_ccc`: the Client Characteristic Configuration value with only
      the notification bit set. */
  const CccEnableNotify: seq<byte> := [0x01, 0x00]

  /** The CCC value is the little-endian 16-bit 0x0001: bit 0, notifications
      (Bluetooth Core Specification v5.x, Vol 3, Part G, section 3.3.3.3),
      and not bit 1, indications. */
  lemma CccEnablesNotificationsOnly()
    ensures |CccEnableNotify| == 2 && LeValue(CccEnableNotify) == 1
  {
    assert CccEnableNotify[1..][1..] == [];
  }

  function Subscribe(charHandle: u16, ccc: u16): seq<Action>
  {
    [RegisterForNotify(charHandle), WriteDescriptor(ccc, CccEnableNotify)]
  }

  /** SEARCH_CMPL: pick the handle range, resolve DATA and CFG, subscribe to
      each one whose CCC descriptor is found, and close the link when either
      handle is still 0. */
  function OnSearchComplete(st: Link, db: seq<DbChar>, allocOk: bool): (o: Out)
    ensures (o.link.handles.start, o.link.handles.end)
         == EffectiveRange(st.handles.start, st.handles.end)
    ensures CloseLink in o.actions <==> o.link.handles.data == 0 || o.link.handles.cfg == 0
    ensures o.link.handles.data != 0 && CccOf(db, o.link.handles.data).Some? ==>
      o.link.handles.dataCcc == CccOf(db, o.link.handles.data).value
      && Subscribe(o.link.handles.data, o.link.handles.dataCcc) <= o.actions
    ensures o.link.handles.cfg != 0 && CccOf(db, o.link.handles.cfg).Some? ==>
      o.link.handles.cfgCcc == CccOf(db, o.link.handles.cfg).value
      && RegisterForNotify(o.link.handles.cfg) in o.actions
      && WriteDescriptor(o.link.handles.cfgCcc, CccEnableNotify) in o.actions
    ensures forall h :: RegisterForNotify(h) in o.actions ==>
      h != 0 && (h == o.link.handles.data || h == o.link.handles.cfg)
    ensures forall a :: a in o.actions ==> a.RegisterForNotify? || a.WriteDescriptor? || a.CloseLink?
    ensures o.link == st.(handles := o.link.handles)
    ensures var r := EffectiveRange(st.handles.start, st.handles.end);
            var res := Resolve(db, r.0, r.1, st.handles.data, st.handles.cfg, allocOk);
            o.link.handles.data == res.dataHandle && o.link.handles.cfg == res.cfgHandle
  {
    var h := SearchHandles(st.handles, db, allocOk);
    Out(st.(handles := h), SearchActions(h.data, h.cfg, FoundCcc(db, h.data), FoundCcc(db, h.cfg)))
  }

  /** The CCC descriptor of a resolved characteristic; none for handle 0. */
  function FoundCcc(db: seq<DbChar>, handle: u16): (c: Option<u16>)
    ensures c.Some? <==> handle != 0 && CccOf(db, handle).Some?
    ensures c.Some? ==> c == CccOf(db, handle)
  {
    if handle != 0 then CccOf(db, handle) else None
  }

  /** The handles after SEARCH_CMPL: the effective range, the resolved
      DATA and CFG characteristics, and each CCC handle that was found. */
  function SearchHandles(old_: GattHandles, db: seq<DbChar>, allocOk: bool): (h: GattHandles)
    ensures (h.start, h.end) == EffectiveRange(old_.start, old_.end)
    ensures FoundCcc(db, h.data).Some? ==> h.dataCcc == FoundCcc(db, h.data).value
    ensures FoundCcc(db, h.data).None? ==> h.dataCcc == old_.dataCcc
    ensures FoundCcc(db, h.cfg).Some? ==> h.cfgCcc == FoundCcc(db, h.cfg).value
    ensures FoundCcc(db, h.cfg).None? ==> h.cfgCcc == old_.cfgCcc
    ensures var r := EffectiveRange(old_.start, old_.end);
            var res := Resolve(db, r.0, r.1, old_.data, old_.cfg, allocOk);
            h.data == res.dataHandle && h.cfg == res.cfgHandle
  {
    var range := EffectiveRange(old_.start, old_.end);
    var res := Resolve(db, range.0, range.1, old_.data, old_.cfg, allocOk);
    var dataCcc := FoundCcc(db, res.dataHandle);
    var cfgCcc := FoundCcc(db, res.cfgHandle);
    GattHandles(
      range.0, range.1, res.dataHandle, res.cfgHandle,
      if dataCcc.Some? then dataCcc.value else old_.dataCcc,
      if cfgCcc.Some? then cfgCcc.value else old_.cfgCcc)
  }

  /** The requests SEARCH_CMPL issues: a subscription for each found CCC
      descriptor, DATA first, then a close when a handle is missing. */
  function SearchActions(data: u16, cfg: u16, dataCcc: Option<u16>, cfgCcc: Option<u16>)
    : (acts: seq<Action>)
    ensures CloseLink in acts <==> data == 0 || cfg == 0
    ensures dataCcc.Some? ==> Subscribe(data, dataCcc.value) <= acts
    ensures cfgCcc.Some? ==>
      RegisterForNotify(cfg) in acts && WriteDescriptor(cfgCcc.value, CccEnableNotify) in acts
    ensures forall h :: RegisterForNotify(h) in acts ==>
      (h == data && dataCcc.Some?) || (h == cfg && cfgCcc.Some?)
    ensures forall a :: a in acts ==> a.RegisterForNotify? || a.WriteDescriptor? || a.CloseLink?
  {
    var subData := if dataCcc.Some? then Subscribe(data, dataCcc.value) else [];
    var subCfg := if cfgCcc.Some? then Subscribe(cfg, cfgCcc.value) else [];
    var close := if data == 0 || cfg == 0 then [CloseLink] else [];
    assert forall a :: a in subData + subCfg + close ==> a in subData || a in subCfg || a in close;
    subData + subCfg + close
  }

  /** CLOSE and DISCONNECT: forget the link and its handles, then try to
      scan again. */
  function Teardown(st: Link, ok: bool): (o: Out)
    ensures !o.link.connected && !o.link.connecting && o.link.handles == NoHandles
    ensures forall a :: a in o.actions ==> a == SetScanParams || a == StartScanning(0)
    ensures o.link == st.(connected := false, connecting := false, handles := NoHandles,
                          scanPending := o.link.scanPending)
    ensures !st.paramsSet ==> o.actions == [SetScanParams] && o.link.scanPending == st.scanPending
    ensures st.paramsSet && !st.scanActive && !st.scanPending ==>
      o.actions == [StartScanning(0)] && (o.link.scanPending <==> ok)
    ensures st.paramsSet && (st.scanActive || st.scanPending) ==>
      o.actions == [] && o.link.scanPending == st.scanPending
  {
    var down := st.(connected := false, connecting := false, handles := NoHandles);
    var c := StartScanSafe(down, ok);
    assert c.link == down.(scanPending := c.link.scanPending);
    Out(c.link, c.actions)
  }

  /** One callback of `gap_cb` or `gattc_cb`. */
  function Step(st: Link, ev: Event, ok: bool): Out
  {
    match ev
    case ScanParamSetComplete(success) =>
      var s := st.(paramsSet := success);
      if success then var c := StartScanSafe(s, ok); Out(c.link, c.actions) else Out(s, [])
    case ScanStartComplete(success) =>
      Out(st.(scanActive := success, scanPending := false), [])
    case ScanResult(inquiry, names, peer, peerType) =>
      if inquiry && !st.connecting && AdvNameMatch(names, st.nameFilter) then
        var s := st.(peer := peer, addrType := peerType);
        var c := OpenSafe(s, peer, peerType, ok);
        Out(c.link, c.actions)
      else Out(st, [])
    case ScanStopComplete =>
      Out(st.(scanActive := false, scanPending := false), [])
    case Registered =>
      var c := StartScanSafe(st, ok);
      Out(c.link, [SetLocalMtu(LocalMtu)] + c.actions)
    case Opened(success, connId) =>
      if success then
        Out(st.(connecting := false, connId := connId, connected := true, handles := NoHandles),
            [RequestMtu, SearchServices])
      else
        var c := StartScanSafe(st.(connecting := false), ok);
        Out(c.link, c.actions)
    case MtuConfigured => Out(st, [])
    case SearchResult(uuid, start, end) =>
      if IsServiceUuid(uuid) then Out(st.(handles := st.handles.(start := start, end := end)), [])
      else Out(st, [])
    case SearchComplete(db) => OnSearchComplete(st, db, ok)
    case Notified(handle, value) =>
      Out(st, if st.hasCallback then [Deliver(value, handle == st.handles.cfg)] else [])
    case DescriptorWritten => Out(st, [])
    case CharacteristicWritten => Out(st, [])
    case Closed => Teardown(st, ok)
    case Disconnected => Teardown(st, ok)
  }

  /** A scan is never both running and being started. */
  predicate ScanFlagsExclusive(st: Link)
  {
    !(st.scanActive && st.scanPending)
  }

  lemma StepKeepsScanFlagsExclusive(st: Link, ev: Event, ok: bool)
    requires ScanFlagsExclusive(st)
    ensures ScanFlagsExclusive(Step(st, ev, ok).link)
  {
  }

  predicate HasOpen(acts: seq<Action>)
  {
    exists i :: 0 <= i < |acts| && acts[i].Open?
  }

  /** Connection attempts are serialised: an open is issued only for an
      inquiry result that passes the name filter while no attempt is in
      progress, and the link is then connecting exactly when the stack
      accepted the call. */
  lemma OpenOnlyWhenIdle(st: Link, ev: Event, ok: bool)
    requires HasOpen(Step(st, ev, ok).actions)
    ensures ev.ScanResult? && ev.inquiry && AdvNameMatch(ev.names, st.nameFilter)
    ensures !st.connecting
    ensures Step(st, ev, ok).link.connecting == ok
    ensures Open(ev.peer, ev.peerType) in Step(st, ev, ok).actions
  {
    NoOpenOffScan(st, ev, ok);
  }

  /** No action is an open. */
  predicate NoOpen(acts: seq<Action>)
  {
    forall i :: 0 <= i < |acts| ==> !acts[i].Open?
  }

  /** Only an inquiry result can lead to an open. */
  lemma NoOpenOffScan(st: Link, ev: Event, ok: bool)
    ensures !ev.ScanResult? ==> NoOpen(Step(st, ev, ok).actions)
  {
    if ev.ScanParamSetComplete? || ev.Registered? || ev.Opened? {
      NoOpenWhileScanning(st, ev, ok);
    } else if ev.SearchComplete? || ev.Closed? || ev.Disconnected? {
      NoOpenAfterSearchOrClose(st, ev, ok);
    } else if !ev.ScanResult? {
      var acts := Step(st, ev, ok).actions;
      assert acts == [] || acts == [Deliver(ev.value, ev.handle == st.handles.cfg)];
    }
  }

  /** Events that may restart scanning or begin discovery issue no open. */
  lemma NoOpenWhileScanning(st: Link, ev: Event, ok: bool)
    requires ev.ScanParamSetComplete? || ev.Registered? || ev.Opened?
    ensures NoOpen(Step(st, ev, ok).actions)
  {
    var acts := Step(st, ev, ok).actions;
    if ev.Registered? {
      var c := StartScanSafe(st, ok);
      assert acts == [SetLocalMtu(LocalMtu)] + c.actions;
      assert forall i :: 1 <= i < |acts| ==> acts[i] == c.actions[i - 1];
    } else {
      assert forall i :: 0 <= i < |acts| ==> acts[i] in acts;
    }
  }

  /** Discovery completion and teardown issue no open. */
  lemma NoOpenAfterSearchOrClose(st: Link, ev: Event, ok: bool)
    requires ev.SearchComplete? || ev.Closed? || ev.Disconnected?
    ensures NoOpen(Step(st, ev, ok).actions)
  {
    var acts := Step(st, ev, ok).actions;
    assert forall i :: 0 <= i < |acts| ==> acts[i] in acts;
  }

  /** Scanning is started only when no connection attempt is in progress,
      the parameters are set and no scan runs or is starting; afterwards the
      start is pending exactly when the stack accepted it. */
  lemma StartScanOnlyWhenIdle(st: Link, ev: Event, ok: bool)
    requires ScanFlagsExclusive(st)
    requires StartScanning(0) in Step(st, ev, ok).actions
    ensures var l := Step(st, ev, ok).link;
            !l.connecting && l.paramsSet && !l.scanActive && l.scanPending == ok
  {
  }

  /** Whatever the link was doing, CLOSE and DISCONNECT leave it
      disconnected, not connecting, with every handle cleared, the name
      filter, parameters flag and callback kept, and go back to scanning
      through `start_scan_safe`. */
  lemma TeardownForgetsLink(st: Link, ev: Event, ok: bool)
    requires ev.Closed? || ev.Disconnected?
    ensures var l := Step(st, ev, ok).link;
            !l.connected && !l.connecting && l.handles == NoHandles && l.connId == st.connId
    ensures var l := Step(st, ev, ok).link;
            l.nameFilter == st.nameFilter && l.paramsSet == st.paramsSet
            && l.hasCallback == st.hasCallback && l.scanActive == st.scanActive
    ensures Step(st, ev, ok).actions == StartScanSafe(st.(connected := false, connecting := false,
                                                         handles := NoHandles), ok).actions
  {
  }

  /** Only a successful START_COMPLETE makes a scan active. */
  lemma ScanActiveOnlyOnSuccess(st: Link, ev: Event, ok: bool)
    requires !st.scanActive && Step(st, ev, ok).link.scanActive
    ensures ev == ScanStartComplete(true)
  {
  }

  /** A start becomes pending only through a start request the stack
      accepted; both completions end it, and STOP_COMPLETE ends the scan. */
  lemma PendingOnlyByAcceptedStart(st: Link, ev: Event, ok: bool)
    ensures !st.scanPending && Step(st, ev, ok).link.scanPending ==>
      ok && StartScanning(0) in Step(st, ev, ok).actions
    ensures ev.ScanStartComplete? || ev.ScanStopComplete? ==> !Step(st, ev, ok).link.scanPending
    ensures ev.ScanStopComplete? ==> !Step(st, ev, ok).link.scanActive
  {
  }

  /** A failed OPEN clears the attempt, keeps the handles, and goes back to
      scanning: parameters first when they are not set, else a new start
      when no scan runs or is starting. */
  lemma FailedOpenRescans(st: Link, connId: u16, ok: bool)
    ensures var o := Step(st, Opened(false, connId), ok);
            !o.link.connecting && o.link.connected == st.connected && o.link.handles == st.handles
    ensures !st.paramsSet ==> Step(st, Opened(false, connId), ok).actions == [SetScanParams]
    ensures st.paramsSet && !st.scanActive && !st.scanPending ==>
      Step(st, Opened(false, connId), ok).actions == [StartScanning(0)]
    ensures st.paramsSet && (st.scanActive || st.scanPending) ==>
      Step(st, Opened(false, connId), ok).actions == []
  {
  }

  /** A successful OPEN starts from cleared handles and asks for the MTU and
      the services, in that order. */
  lemma OpenedStartsDiscovery(st: Link, connId: u16, ok: bool)
    ensures Step(st, Opened(true, connId), ok)
         == Out(st.(connecting := false, connId := connId, connected := true, handles := NoHandles),
                [RequestMtu, SearchServices])
  {
  }

  /** SEARCH_CMPL end to end: when both characteristics are found by UUID
      in the effective range and both have a CCC descriptor, the link keeps
      exactly those handles and subscribes to DATA, then CFG, without
      closing. */
  lemma SearchCompleteSubscribesBoth(st: Link, db: seq<DbChar>, ok: bool, d: u16, c: u16, dc: u16, cc: u16)
    requires var r := EffectiveRange(st.handles.start, st.handles.end);
             CharByUuid(db, r.0, r.1, Uuid128(DataUuid)) == Some(d)
             && CharByUuid(db, r.0, r.1, Uuid128(CfgUuid)) == Some(c)
    requires d != 0 && c != 0 && CccOf(db, d) == Some(dc) && CccOf(db, c) == Some(cc)
    ensures var r := EffectiveRange(st.handles.start, st.handles.end);
            Step(st, SearchComplete(db), ok)
            == Out(st.(handles := GattHandles(r.0, r.1, d, c, dc, cc)), Subscribe(d, dc) + Subscribe(c, cc))
  {
    var r := EffectiveRange(st.handles.start, st.handles.end);
    var res := Resolve(db, r.0, r.1, st.handles.data, st.handles.cfg, ok);
    assert res.dataHandle == d && res.cfgHandle == c;
    assert SearchHandles(st.handles, db, ok) == GattHandles(r.0, r.1, d, c, dc, cc);
  }

  /** The first callback after `ble_start` (the application registered)
      sets the local MTU and asks for scan parameters, and leaves the link
      as `ble_start` made it. */
  lemma StartThenRegistered(filter: Option<seq<byte>>, hasCallback: bool, ok: bool)
    ensures Step(Start(filter, hasCallback), Registered, ok)
         == Out(Start(filter, hasCallback), [SetLocalMtu(LocalMtu), SetScanParams])
  {
  }

  /** A NUL-free filter of at most 31 bytes matches an advertiser whose
      complete or short name is that filter, and no other named one. */
  lemma StartFilterMatches(filter: seq<byte>, hasCallback: bool, names: AdvNames)
    requires 0 < |filter| <= MaxFilter && 0 !in filter
    ensures AdvNameMatch(names, Start(Some(filter), hasCallback).nameFilter)
        <==> names.complete == Some(filter) || names.short == Some(filter)
  {
  }

  /** A longer filter is cut to its first 31 bytes: an advertiser named
      with the whole filter is not matched, one named with the cut filter is. */
  lemma LongFilterMatchesCutName(filter: seq<byte>, hasCallback: bool)
    requires |filter| > MaxFilter && 0 !in filter
    ensures !AdvNameMatch(AdvNames(Some(filter), None), Start(Some(filter), hasCallback).nameFilter)
    ensures AdvNameMatch(AdvNames(Some(filter[..MaxFilter]), None), Start(Some(filter), hasCallback).nameFilter)
  {
    assert 0 !in filter[..MaxFilter];
    assert filter != filter[..MaxFilter];
  }

  /** Notifications go to the callback, tagged CFG exactly when they come
      from the resolved CFG handle; the link itself does not change. */
  lemma NotifyRoutes(st: Link, handle: u16, value: seq<byte>, ok: bool)
    requires st.hasCallback
    ensures Step(st, Notified(handle, value), ok)
         == Out(st, [Deliver(value, handle == st.handles.cfg)])
  {
  }

  /** `ble_send_get`. */
  function SendGet(st: Link, id: u16, ok: bool): (c: Call)
    ensures c.link == st
    ensures !st.connected || st.handles.cfg == 0 ==> c.actions == [] && c.rc == InvalidState
    ensures st.connected && st.handles.cfg != 0 ==>
      c.actions == [WriteCharacteristic(st.handles.cfg, Commands.GetFrame(id))]
      && Commands.Parse(c.actions[0].value) == Some(Commands.Command(Commands.Get, id, 0, []))
      && c.rc == RcOf(ok)
  {
    if !st.connected || st.handles.cfg == 0 then Call(st, [], InvalidState)
    else Call(st, [WriteCharacteristic(st.handles.cfg, Commands.GetFrame(id))], RcOf(ok))
  }

  /** `ble_send_set`: refused unless linked, refused above 240 payload bytes,
      `NoMem` when the frame cannot be allocated. */
  function SendSet(st: Link, id: u16, payload: seq<byte>, allocOk: bool, ok: bool): (c: Call)
    requires |payload| <= 0xFFFF
    ensures c.link == st
    ensures c.actions != [] <==>
      st.connected && st.handles.cfg != 0 && |payload| <= Commands.MaxWritePayload && allocOk
    ensures !st.connected || st.handles.cfg == 0 ==> c.rc == InvalidState
    ensures st.connected && st.handles.cfg != 0 && |payload| > Commands.MaxWritePayload ==>
      c.rc == InvalidSize
    ensures st.connected && st.handles.cfg != 0 && |payload| <= Commands.MaxWritePayload && !allocOk ==>
      c.rc == NoMem
    ensures c.actions != [] ==>
      c.actions == [WriteCharacteristic(st.handles.cfg, Commands.SetFrame(id, payload))]
      && Commands.Parse(c.actions[0].value) == Some(Commands.Command(Commands.Set, id, 0xFF, payload))
      && c.rc == RcOf(ok)
  {
    if !st.connected || st.handles.cfg == 0 then Call(st, [], InvalidState)
    else if |payload| > Commands.MaxWritePayload then Call(st, [], InvalidSize)
    else if !allocOk then Call(st, [], NoMem)
    else Call(st, [WriteCharacteristic(st.handles.cfg, Commands.SetFrame(id, payload))], RcOf(ok))
  }

  /** The SET frame is the 5-byte header and the payload, so the largest
      payload `SendSet` accepts makes a frame of 245 bytes. */
  lemma SetFrameLength(st: Link, id: u16, payload: seq<byte>, allocOk: bool, ok: bool)
    requires |payload| <= 0xFFFF
    requires SendSet(st, id, payload, allocOk, ok).actions != []
    ensures |SendSet(st, id, payload, allocOk, ok).actions[0].value| == 5 + |payload| <= LocalMtu - 2
  {
  }

  /** The longest value one ATT Write Request carries at the local MTU:
      ATT_MTU - 3 bytes, after the opcode and the attribute handle
      (Bluetooth Core Specification v5.x, Vol 3, Part F, section 3.4.5.1). */
  const AttWriteMax := LocalMtu - 3

  /** `max_write_payload` allows 240 bytes, one more than fits: a SET with
      a 240-byte payload is sent as a 245-byte write, longer than
      `AttWriteMax`. */
  lemma MaxSetOverflowsAttWrite(st: Link, id: u16, payload: seq<byte>)
    requires st.connected && st.handles.cfg != 0 && |payload| == Commands.MaxWritePayload
    ensures SendSet(st, id, payload, true, true).actions != []
    ensures |SendSet(st, id, payload, true, true).actions[0].value| == AttWriteMax + 1
  {
  }

  /** The payload limit that keeps a SET frame within one ATT write. */
  const FittedWritePayload := AttWriteMax - 5

  /** `ble_send_set` with the size check at `FittedWritePayload` (239):
      the same call otherwise, and every frame it sends fits one ATT write. */
  function SendSetFitted(st: Link, id: u16, payload: seq<byte>, allocOk: bool, ok: bool): (c: Call)
    requires |payload| <= 0xFFFF
    ensures |payload| <= FittedWritePayload ==> c == SendSet(st, id, payload, allocOk, ok)
    ensures st.connected && st.handles.cfg != 0 && |payload| > FittedWritePayload ==>
      c == Call(st, [], InvalidSize)
    ensures !st.connected || st.handles.cfg == 0 ==> c == Call(st, [], InvalidState)
    ensures c.actions != [] ==> |c.actions[0].value| <= AttWriteMax
  {
    if st.connected && st.handles.cfg != 0 && |payload| > FittedWritePayload then Call(st, [], InvalidSize)
    else SendSet(st, id, payload, allocOk, ok)
  }
}

=== FILE: cfg_frames.dfy ===
/** Classification of CFG-characteristic notifications.

    Two logging decoders exist: main/main.c `parse_cfg_notify` (ACK, then
    STATE, then a record stream) and components/ble/pretty_print.c
    `pp_log_cfg` (a 13-byte heartbeat fast path first, then the same three).
    Both are modelled as functions from the notified bytes to a `CfgFrame`;
    each fixed frame gets an encoder proved to be the decoder's inverse, and
    the records of a stream are turned into decoded `Report`s instead of log
    lines. */
module CfgFrames {
  import opened Common
  import opened Endian
  import opened Tlv

  /** `[1, 0x81, req_hi, req_lo, status, applied]` */
  datatype Ack = Ack(requestId: u16, status: byte, applied: byte)

  /** The 17-byte STATE snapshot `[1, 0x90, status, sync:BE16, uptime:BE32,
      net:BE16, zone:BE16, anchor:BE32]`. */
  datatype StateSnapshot = StateSnapshot(
    status: byte, syncMs: u16, uptimeMs: u32, networkId: u16, zoneId: u16, anchorId: u32)

  /** The 13-byte heartbeat `[01 01 st] [02 04 uptime:BE32] [03 02 sync:BE16]`. */
  datatype Heartbeat = Heartbeat(status: byte, uptimeMs: u32, syncMs: u16)

  datatype CfgFrame =
    | AckFrame(ack: Ack)
    | StateFrame(state: StateSnapshot)
    | HeartbeatFrame(hb: Heartbeat)
    | StreamFrame(walk: Walk)

  predicate IsAck(d: seq<byte>)
  {
    |d| == 6 && d[0] == 1 && d[1] == 0x81
  }

  predicate IsState(d: seq<byte>)
  {
    |d| == 17 && d[0] == 1 && d[1] == 0x90
  }

  predicate IsHeartbeat(d: seq<byte>)
  {
    |d| == 13 && d[0] == 1 && d[1] == 1 && d[3] == 2 && d[4] == 4 && d[9] == 3 && d[10] == 2
  }

  function DecodeAck(d: seq<byte>): Ack
    requires IsAck(d)
  {
    Ack(Rd16Be(d[2..4]), d[4], d[5])
  }

  function EncodeAck(a: Ack): (d: seq<byte>)
    ensures IsAck(d) && DecodeAck(d) == a
  {
    var d := [1, 0x81] + Be16Bytes(a.requestId) + [a.status, a.applied];
    assert d[2..4] == Be16Bytes(a.requestId);
    d
  }

  function DecodeState(d: seq<byte>): StateSnapshot
    requires IsState(d)
  {
    StateSnapshot(d[2], Rd16Be(d[3..5]), Rd32Be(d[5..9]), Rd16Be(d[9..11]),
                  Rd16Be(d[11..13]), Rd32Be(d[13..17]))
  }

  function EncodeState(s: StateSnapshot): (d: seq<byte>)
    ensures IsState(d) && DecodeState(d) == s
  {
    var d := [1, 0x90, s.status] + Be16Bytes(s.syncMs) + Be32Bytes(s.uptimeMs)
      + Be16Bytes(s.networkId) + Be16Bytes(s.zoneId) + Be32Bytes(s.anchorId);
    assert d[3..5] == Be16Bytes(s.syncMs) && d[5..9] == Be32Bytes(s.uptimeMs);
    assert d[9..11] == Be16Bytes(s.networkId) && d[11..13] == Be16Bytes(s.zoneId);
    assert d[13..17] == Be32Bytes(s.anchorId);
    d
  }

  function DecodeHeartbeat(d: seq<byte>): Heartbeat
    requires IsHeartbeat(d)
  {
    Heartbeat(d[2], Rd32Be(d[5..9]), Rd16Be(d[11..13]))
  }

  function EncodeHeartbeat(h: Heartbeat): (d: seq<byte>)
    ensures IsHeartbeat(d) && DecodeHeartbeat(d) == h
  {
    var d := [1, 1, h.status, 2, 4] + Be32Bytes(h.uptimeMs) + [3, 2] + Be16Bytes(h.syncMs);
    assert d[5..9] == Be32Bytes(h.uptimeMs) && d[11..13] == Be16Bytes(h.syncMs);
    d
  }

  /** Every frame of a fixed shape is the encoding of what it decodes to. */
  lemma FixedFramesInvert(d: seq<byte>)
    ensures IsAck(d) ==> EncodeAck(DecodeAck(d)) == d
    ensures IsState(d) ==> EncodeState(DecodeState(d)) == d
    ensures IsHeartbeat(d) ==> EncodeHeartbeat(DecodeHeartbeat(d)) == d
  {
    if IsAck(d) {
      ReadersInvert(d[2..4], [0, 0, 0, 0], [0, 0, 0, 0, 0]);
      assert d == [1, 0x81] + d[2..4] + [d[4], d[5]];
    }
    if IsState(d) {
      ReadersInvert(d[3..5], d[5..9], [0, 0, 0, 0, 0]);
      ReadersInvert(d[9..11], d[13..17], [0, 0, 0, 0, 0]);
      ReadersInvert(d[11..13], d[13..17], [0, 0, 0, 0, 0]);
      assert d == [1, 0x90, d[2]] + d[3..5] + d[5..9] + d[9..11] + d[11..13] + d[13..17];
    }
    if IsHeartbeat(d) {
      ReadersInvert(d[11..13], d[5..9], [0, 0, 0, 0, 0]);
      assert d == [1, 1, d[2], 2, 4] + d[5..9] + [3, 2] + d[11..13];
    }
  }

  /** main/main.c `parse_cfg_notify`: ACK, then STATE, else a record stream. */
  function ClassifyMain(d: seq<byte>): (f: CfgFrame)
    ensures f.AckFrame? <==> IsAck(d)
    ensures f.StateFrame? <==> IsState(d)
    ensures !f.HeartbeatFrame?
    ensures f.AckFrame? ==> EncodeAck(f.ack) == d
    ensures f.StateFrame? ==> EncodeState(f.state) == d
    ensures f.StreamFrame? ==> f.walk == Parse(d)
  {
    FixedFramesInvert(d);
    if IsAck(d) then AckFrame(DecodeAck(d))
    else if IsState(d) then StateFrame(DecodeState(d))
    else StreamFrame(Parse(d))
  }

  /** components/ble/pretty_print.c `pp_log_cfg`: the heartbeat is checked
      first; every other input is classified exactly as main.c does, with
      the same field offsets. */
  function ClassifyPretty(d: seq<byte>): (f: CfgFrame)
    ensures f.HeartbeatFrame? <==> IsHeartbeat(d)
    ensures f.HeartbeatFrame? ==> EncodeHeartbeat(f.hb) == d
    ensures !IsHeartbeat(d) ==> f == ClassifyMain(d)
  {
    FixedFramesInvert(d);
    if IsHeartbeat(d) then HeartbeatFrame(DecodeHeartbeat(d))
    else if IsAck(d) then AckFrame(DecodeAck(d))
    else if IsState(d) then StateFrame(DecodeState(d))
    else StreamFrame(Parse(d))
  }

  /** What a decoder reports for one record: a known tag at its fixed width
      with its decoded value, or an unknown tag (main.c prints tag and length;
      pretty_print.c also dumps the leading value bytes). A known tag at the
      wrong width is reported by neither. */
  datatype Report =
    | Field(tag: byte, value: int)
    | UnknownTag(tag: byte, len: nat)
    | UnknownDump(tag: byte, len: nat, shown: seq<byte>)

  /** Value width of every tag the two logging decoders know (the tables of
      main.c and pretty_print.c are identical). */
  const LogWidths: map<byte, nat> := map[
    0x00 := 1, 0x01 := 1, 0x02 := 4, 0x03 := 2,
    0x10 := 2, 0x11 := 2, 0x12 := 4, 0x13 := 4, 0x14 := 4, 0x16 := 4,
    0x1F := 1, 0x20 := 2,
    0x30 := 2, 0x31 := 2, 0x32 := 2, 0x33 := 1, 0x34 := 1,
    0x35 := 2, 0x36 := 2, 0x37 := 2, 0x38 := 2, 0x39 := 1]

  /** TX/RX antenna delay and bias ticks are printed as `int32_t`. */
  const SignedTags: set<byte> := {0x13, 0x14, 0x16}

  /** Big-endian value of a 1-, 2- or 4-byte field; signed tags are read as
      two's complement. */
  function FieldValue(tag: byte, v: seq<byte>): int
    requires |v| == 1 || |v| == 2 || |v| == 4
  {
    if |v| == 1 then v[0]
    else if |v| == 2 then Rd16Be(v)
    else if tag in SignedTags then ToInt32(Rd32Be(v))
    else Rd32Be(v)
  }

  /** How many value bytes pretty_print.c dumps for an unknown tag. */
  const DumpLimit := 42

  function DumpedBytes(v: seq<byte>): seq<byte>
  {
    if |v| <= DumpLimit then v else v[..DumpLimit]
  }

  /** The `switch (t)` of main/main.c `parse_cfg_notify`. */
  function ReportMain(r: Record): (o: Option<Report>)
    ensures o.None? <==> r.tag in LogWidths && |r.value| != LogWidths[r.tag]
    ensures o.Some? && o.value.Field? ==> o.value.tag == r.tag && r.tag in LogWidths
    ensures r.tag !in LogWidths ==> o == Some(UnknownTag(r.tag, |r.value|))
    ensures r.tag in LogWidths && |r.value| == LogWidths[r.tag] ==>
      (|r.value| == 1 || |r.value| == 2 || |r.value| == 4)
      && o == Some(Field(r.tag, FieldValue(r.tag, r.value)))
  {
    if r.tag in LogWidths then
      if |r.value| == LogWidths[r.tag] then Some(Field(r.tag, FieldValue(r.tag, r.value)))
      else None
    else Some(UnknownTag(r.tag, |r.value|))
  }

  /** The `switch (t)` of components/ble/pretty_print.c `pp_log_cfg`: the
      same as main.c for known tags; unknown tags keep their raw bytes. */
  function ReportPretty(r: Record): (o: Option<Report>)
    ensures r.tag in LogWidths ==> o == ReportMain(r)
    ensures r.tag !in LogWidths ==>
      (o.Some? && o.value.UnknownDump? && o.value.tag == r.tag && o.value.len == |r.value|
       && o.value.shown <= r.value && |o.value.shown| == Min(|r.value|, DumpLimit))
  {
    if r.tag in LogWidths then ReportMain(r)
    else Some(UnknownDump(r.tag, |r.value|, DumpedBytes(r.value)))
  }

  function Min(a: int, b: int): int
  {
    if a <= b then a else b
  }

  /** An unsigned field's value is the big-endian value of its bytes. */
  lemma FieldValueUnsigned(tag: byte, v: seq<byte>)
    requires |v| == 1 || |v| == 2 || |v| == 4
    requires tag !in SignedTags
    ensures FieldValue(tag, v) == BeValue(v)
  {
    if |v| == 1 {
      assert v == [] + [v[0]];
      BeSnoc([], v[0]);
    }
  }

  /** A known unsigned field encoded big-endian at its width is reported with
      the value it was encoded from. */
  lemma ReportUnsignedRoundTrip(tag: byte, x: nat)
    requires tag in LogWidths && tag !in SignedTags
    requires x < Pow256(LogWidths[tag])
    ensures ReportMain(Record(tag, ToBe(x, LogWidths[tag]))) == Some(Field(tag, x))
  {
    var w := LogWidths[tag];
    assert w == 1 || w == 2 || w == 4;
    var v := ToBe(x, w);
    BeRoundTrip(x, w);
    FieldValueUnsigned(tag, v);
  }

  /** A signed field written as the two's complement of `x` reads back as `x`. */
  lemma ReportSignedRoundTrip(tag: byte, x: i32)
    requires tag in SignedTags
    ensures ReportMain(Record(tag, Be32Bytes((x + 0x1_0000_0000) % 0x1_0000_0000)))
         == Some(Field(tag, x))
  {
  }

  /** The `for` loop of pretty_print.c's hex dump of an unknown value:
      `"%02X "` per byte into a 128-byte buffer while `o + 3 < 128`. It
      writes the first `DumpLimit` bytes at most, three characters each,
      and `snprintf` leaves a NUL after the last one. */
  method DumpLoop(v: seq<byte>) returns (shown: seq<byte>, o: nat)
    requires |v| < 0x100
    ensures shown == DumpedBytes(v)
    ensures o == 3 * |shown| <= 3 * DumpLimit
  {
    o := 0;
    var k := 0;
    shown := [];
    while k < |v| && o + 3 < 128
      invariant 0 <= k <= |v| && k <= DumpLimit
      invariant o == 3 * k
      invariant shown == v[..k]
    {
      shown := shown + [v[k]];
      o := o + 3;
      k := k + 1;
    }
    assert k == |v| || k == DumpLimit;
    if k == |v| {
      assert shown == v;
    }
  }

  /** The text left in the dump buffer: a NUL-terminated string of `len`
      characters, or a buffer no byte of which was written. */
  datatype DumpText = Terminated(len: nat) | Unterminated

  /** The dump as written: `if (o) hex[o-1] = 0` cuts the trailing space,
      but a value of length 0 never enters the loop, so nothing is written
      and the uninitialised buffer is printed with `%s`. */
  method HexDump(v: seq<byte>) returns (shown: seq<byte>, text: DumpText)
    requires |v| < 0x100
    ensures shown == DumpedBytes(v)
    ensures text.Unterminated? <==> v == []
    ensures text.Terminated? ==> text.len == 3 * |shown| - 1 && text.len < 128
  {
    var o;
    shown, o := DumpLoop(v);
    text := if o > 0 then Terminated(o - 1) else Unterminated;
  }

  /** The notification `[0x50, 0x00]` holds one record of the unknown tag
      0x50 with an empty value, which pretty_print.c hands to the hex dump:
      by `HexDump`, its buffer is printed unterminated. */
  lemma EmptyUnknownReachesDump()
    ensures Parse([0x50, 0x00]) == Walk([Record(0x50, [])], Exhausted)
    ensures 0x50 !in LogWidths
    ensures ReportPretty(Record(0x50, [])) == Some(UnknownDump(0x50, 0, []))
  {
    assert [0x50, 0x00][2..] == [];
    assert [0x50, 0x00][2..2] == [];
  }

  /** The dump with `hex[0] = 0` written before the loop: the text is
      always terminated, is empty for an empty value, and stays within the
      128-byte buffer. */
  method HexDumpTerminated(v: seq<byte>) returns (shown: seq<byte>, textLen: nat)
    requires |v| < 0x100
    ensures shown == DumpedBytes(v)
    ensures textLen < 128
    ensures textLen == if shown == [] then 0 else 3 * |shown| - 1
  {
    var o;
    shown, o := DumpLoop(v);
    textLen := if o > 0 then o - 1 else 0;
  }

  lemma EncodeThree(a: Record, b: Record, c: Record)
    requires WellFormed(a) && WellFormed(b) && WellFormed(c)
    ensures AllWellFormed([a, b, c])
    ensures Encode([a, b, c]) == EncodeRecord(a) + EncodeRecord(b) + EncodeRecord(c)
  {
    EncodeCons(c, []);
    assert [c] == [c] + [];
    EncodeCons(b, [c]);
    assert [b, c] == [b] + [c];
    EncodeCons(a, [b, c]);
    assert [a, b, c] == [a] + [b, c];
  }

  /** The heartbeat is itself a well-formed stream of tags 1, 2 and 3. */
  lemma HeartbeatIsStream(d: seq<byte>)
    requires IsHeartbeat(d)
    ensures Parse(d) == Walk([Record(1, [d[2]]), Record(2, d[5..9]), Record(3, d[11..13])], Exhausted)
  {
    var a, b, c := Record(1, [d[2]]), Record(2, d[5..9]), Record(3, d[11..13]);
    EncodeThree(a, b, c);
    assert EncodeRecord(a) == d[..3];
    assert EncodeRecord(b) == d[3..9];
    assert EncodeRecord(c) == d[9..];
    assert d == d[..3] + d[3..9] + d[9..];
    ParseEncode([a, b, c]);
  }

  /** On a heartbeat, the fast path reports the same values that the stream
      branch would report for its three records. */
  lemma HeartbeatFastPathAgrees(d: seq<byte>)
    requires IsHeartbeat(d)
    ensures ReportPretty(Record(1, [d[2]])) == Some(Field(1, DecodeHeartbeat(d).status))
    ensures ReportPretty(Record(2, d[5..9])) == Some(Field(2, DecodeHeartbeat(d).uptimeMs))
    ensures ReportPretty(Record(3, d[11..13])) == Some(Field(3, DecodeHeartbeat(d).syncMs))
  {
  }

  /** The SET payload built by main/main.c `send_cfg_example`. */
  const ExampleSetPayload: seq<byte> := [0x10, 2, 0x00, 0x02, 0x20, 2, 0x13, 0x88]

  /** It is the encoding of NETWORK_ID = 2 and HB_MS = 5000 ... */
  lemma ExamplePayloadEncodes()
    ensures ExampleSetPayload == Encode([Record(0x10, [0, 2]), Record(0x20, [0x13, 0x88])])
  {
    var rs := [Record(0x10, [0, 2]), Record(0x20, [0x13, 0x88])];
    assert rs[1..][1..] == [];
    assert Encode(rs[1..]) == [0x20, 2, 0x13, 0x88];
  }

  /** ... it walks back to those two records ... */
  lemma ExamplePayloadWalk()
    ensures Parse(ExampleSetPayload) == Walk([Record(0x10, [0, 2]), Record(0x20, [0x13, 0x88])], Exhausted)
  {
    ExamplePayloadEncodes();
    ParseEncode([Record(0x10, [0, 2]), Record(0x20, [0x13, 0x88])]);
  }

  /** ... and the log decoder reads them as those two values. */
  lemma ExampleFieldsDecode()
    ensures ReportMain(Record(0x10, [0, 2])) == Some(Field(0x10, 2))
    ensures ReportMain(Record(0x20, [0x13, 0x88])) == Some(Field(0x20, 5000))
  {
  }
}

=== FILE: commands.dfy ===
/** Command frames written to the CFG characteristic
    (components/ble/ble.c `ble_send_get` / `ble_send_set`).

    Header: `[version = 1, opcode, req_hi, req_lo, reserved]`, then the TLV
    payload for SET. The firmware only builds frames; `Parse` is the reading
    a peripheral applies to them, written here so that the builders can be
    checked against an inverse. */
module Commands {
  import opened Common
  import opened Endian

  const Version := 1
  const OpcodeSet := 0x01
  const OpcodeGet := 0x02

  /** `max_write_payload`: ATT MTU 247 less 7 bytes of overhead. */
  const MaxWritePayload := 240

  datatype Opcode = Set | Get

  datatype Command = Command(op: Opcode, requestId: u16, reserved: byte, payload: seq<byte>)

  function OpcodeByte(op: Opcode): byte
  {
    match op
    case Set => OpcodeSet
    case Get => OpcodeGet
  }

  /** The header bytes `id >> 8` and `(uint8_t)id`. */
  function RequestIdBytes(id: u16): (b: seq<byte>)
    ensures |b| == 2 && Rd16Be(b) == id
  {
    [id / 0x100, id % 0x100]
  }

  function Encode(c: Command): (f: seq<byte>)
    ensures |f| == 5 + |c.payload|
  {
    [Version, OpcodeByte(c.op)] + RequestIdBytes(c.requestId) + [c.reserved] + c.payload
  }

  function Parse(f: seq<byte>): Option<Command>
  {
    if |f| < 5 || f[0] != Version || (f[1] != OpcodeSet && f[1] != OpcodeGet) then None
    else Some(Command(if f[1] == OpcodeSet then Set else Get, Rd16Be(f[2..4]), f[4], f[5..]))
  }

  /** Every command survives encoding and reading back. */
  lemma ParseEncode(c: Command)
    ensures Parse(Encode(c)) == Some(c)
  {
    var f := Encode(c);
    assert f[2..4] == RequestIdBytes(c.requestId);
    assert f[5..] == c.payload;
  }

  /** Every frame that reads as a command is that command's encoding. */
  lemma EncodeParse(f: seq<byte>)
    requires Parse(f).Some?
    ensures Encode(Parse(f).value) == f
  {
    var id := Rd16Be(f[2..4]);
    assert RequestIdBytes(id) == f[2..4];
    assert f == f[..2] + f[2..4] + [f[4]] + f[5..];
  }

  /** The 5-byte GET frame `[1, 0x02, id>>8, id&0xFF, 0]`. */
  function GetFrame(id: u16): (f: seq<byte>)
    ensures |f| == 5
    ensures Parse(f) == Some(Command(Get, id, 0, []))
  {
    var f := Encode(Command(Get, id, 0, []));
    ParseEncode(Command(Get, id, 0, []));
    f
  }

  /** The SET frame `[1, 0x01, id>>8, id&0xFF, 0xFF] ++ payload`. */
  function SetFrame(id: u16, payload: seq<byte>): (f: seq<byte>)
    ensures |f| == 5 + |payload|
    ensures f[5..] == payload
    ensures Parse(f) == Some(Command(Set, id, 0xFF, payload))
  {
    var f := Encode(Command(Set, id, 0xFF, payload));
    ParseEncode(Command(Set, id, 0xFF, payload));
    f
  }
}

=== FILE: common.dfy ===
/** Machine-width integer types and the Option wrapper shared by every module.
    The firmware is C on a 32-bit target; its fixed-width integers are modelled
    as subset types of the unbounded `int`, so every truncation has to be
    written out where the source performs it. */
module Common {

  /** uint8_t */
  type byte = b: int | 0 <= b < 0x100

  /** uint16_t */
  type u16 = x: int | 0 <= x < 0x1_0000

  /** uint32_t */
  type u32 = x: int | 0 <= x < 0x1_0000_0000

  /** the 40-bit range of the DATA packet timestamp */
  type u40 = x: int | 0 <= x < 0x100_0000_0000

  /** int32_t */
  type i32 = x: int | -0x8000_0000 <= x < 0x8000_0000

  /** A value that may be absent (a NULL pointer, a failed lookup). */
  datatype Option<+T> = None | Some(value: T)

  /** The C conversion `(int32_t)` of a 32-bit pattern: two's complement. */
  function ToInt32(v: u32): (r: i32)
    ensures r == v || r == v - 0x1_0000_0000
    ensures r < 0 <==> v >= 0x8000_0000
  {
    if v < 0x8000_0000 then v else v - 0x1_0000_0000
  }
}

=== FILE: cstring.dfy ===
/** The few `<string.h>` searches the web helpers use, on C strings:
    character sequences without a terminating NUL inside them. */
module CText {
  import opened Common

  /** A C string's contents: everything before its terminator. */
  type CStr = s: string | '\0' !in s

  /** The C string a NUL-padded buffer holds: the bytes before the first NUL. */
  function CPrefix(raw: string): (s: CStr)
    ensures s <= raw
    ensures |s| < |raw| ==> raw[|s|] == '\0'
  {
    if raw == [] || raw[0] == '\0' then [] else [raw[0]] + CPrefix(raw[1..])
  }

  predicate OccursAt(s: string, pat: string, i: nat)
  {
    i + |pat| <= |s| && s[i..i + |pat|] == pat
  }

  /** `strstr`, searching from index `from`: the first occurrence at or after it. */
  function FindFrom(s: string, pat: string, from: nat): (o: Option<nat>)
    ensures o.Some? ==> from <= o.value && OccursAt(s, pat, o.value)
    ensures o.Some? ==> forall j :: from <= j < o.value ==> !OccursAt(s, pat, j)
    ensures o.None? ==> forall j :: from <= j ==> !OccursAt(s, pat, j)
    decreases |s| - from
  {
    if from + |pat| > |s| then None
    else if s[from..from + |pat|] == pat then Some(from)
    else FindFrom(s, pat, from + 1)
  }

  /** `strstr`: the first occurrence of `pat` in `s`. */
  function FindSub(s: string, pat: string): (o: Option<nat>)
    ensures o.Some? ==> OccursAt(s, pat, o.value) && forall j :: 0 <= j < o.value ==> !OccursAt(s, pat, j)
    ensures o.None? ==> forall j :: 0 <= j ==> !OccursAt(s, pat, j)
  {
    FindFrom(s, pat, 0)
  }

  /** `strchr` from index `from`. */
  function IndexFrom(s: string, c: char, from: nat): (o: Option<nat>)
    ensures o.Some? ==> from <= o.value < |s| && s[o.value] == c
    ensures o.Some? ==> forall j :: from <= j < o.value ==> s[j] != c
    ensures o.None? ==> forall j :: from <= j < |s| ==> s[j] != c
    decreases |s| - from
  {
    if from >= |s| then None
    else if s[from] == c then Some(from)
    else IndexFrom(s, c, from + 1)
  }

  /** `strrchr`: the last occurrence of `c`. */
  function LastIndex(s: string, c: char): (o: Option<nat>)
    ensures o.Some? ==> o.value < |s| && s[o.value] == c
    ensures o.Some? ==> forall j :: o.value < j < |s| ==> s[j] != c
    ensures o.None? ==> forall j :: 0 <= j < |s| ==> s[j] != c
    decreases |s|
  {
    if s == [] then None
    else if s[|s| - 1] == c then Some(|s| - 1)
    else LastIndex(s[..|s| - 1], c)
  }

  /** `strncmp(s, pre, |pre|) == 0`. */
  predicate StartsWith(s: string, pre: string)
  {
    |pre| <= |s| && s[..|pre|] == pre
  }
}

=== FILE: data_packet.dfy ===
/** The 20-byte telemetry packet notified on the DATA characteristic
    (components/ble/pretty_print.c `pp_log_data`), and the routing of every
    notification in main/main.c `on_ble_notify`.

    Layout: `[0xAB, version, sync_seq, tag_seq, anchor_id:LE32, tag_id:LE32,
    timestamp:LE40]` in bytes 0..16; bytes 17..19 are not read. Unlike the CFG
    frames, these fields are little-endian. */
module DataPacket {
  import opened Common
  import opened Endian
  import CfgFrames

  const Marker := 0xAB
  const PacketLength := 20

  /** Bytes 0..16 carry fields; the rest of the packet is never read. */
  const FieldBytes := 17

  datatype Packet = Packet(
    version: byte, syncSeq: byte, tagSeq: byte, anchorId: u32, tagId: u32, timestamp: u40)

  predicate IsPacket(d: seq<byte>)
  {
    |d| == PacketLength && d[0] == Marker
  }

  /** A packet on the wire, with the unread tail zeroed. */
  function Encode(p: Packet): (d: seq<byte>)
    ensures IsPacket(d)
  {
    [Marker, p.version, p.syncSeq, p.tagSeq] + Le32Bytes(p.anchorId) + Le32Bytes(p.tagId)
      + Le40Bytes(p.timestamp) + [0, 0, 0]
  }

  /** `pp_log_data`: only a 20-byte buffer starting with the marker is
      decoded; anything else yields nothing. A decoded packet re-encodes to
      exactly the field bytes it came from. */
  function Decode(d: seq<byte>): (r: Option<Packet>)
    ensures r.Some? <==> IsPacket(d)
    ensures r.Some? ==> Encode(r.value)[..FieldBytes] == d[..FieldBytes]
  {
    if |d| != PacketLength || d[0] != Marker then None
    else
      ReadersInvert([0, 0], d[4..8], d[12..17]);
      ReadersInvert([0, 0], d[8..12], d[12..17]);
      assert d[..FieldBytes] == [d[0], d[1], d[2], d[3]] + d[4..8] + d[8..12] + d[12..17];
      Some(Packet(d[1], d[2], d[3], Rd32Le(d[4..8]), Rd32Le(d[8..12]), Rd40Le(d[12..17])))
  }

  /** Round trip in the other direction: every packet survives encoding. */
  lemma DecodeEncode(p: Packet)
    ensures Decode(Encode(p)) == Some(p)
  {
    var d := Encode(p);
    assert d[4..8] == Le32Bytes(p.anchorId);
    assert d[8..12] == Le32Bytes(p.tagId);
    assert d[12..17] == Le40Bytes(p.timestamp);
  }

  /** The bytes between the timestamp and the end of the packet are not
      part of any field. */
  lemma TrailingBytesIgnored(d: seq<byte>, e: seq<byte>)
    requires IsPacket(d) && IsPacket(e) && d[..FieldBytes] == e[..FieldBytes]
    ensures Decode(d) == Decode(e)
  {
    assert d[4..8] == e[4..8] && d[8..12] == e[8..12] && d[12..17] == e[12..17];
  }

  /** A packet from anchor 1 about tag 2: the identifiers are read
      least significant byte first. */
  lemma ExamplePacket(ts: seq<byte>, tail: seq<byte>)
    requires |ts| == 5 && |tail| == 3
    ensures Decode([0xAB, 1, 0, 0, 1, 0, 0, 0, 2, 0, 0, 0] + ts + tail)
         == Some(Packet(1, 0, 0, 1, 2, Rd40Le(ts)))
  {
    var d := [0xAB, 1, 0, 0, 1, 0, 0, 0, 2, 0, 0, 0] + ts + tail;
    assert d[4..8] == [1, 0, 0, 0] && d[8..12] == [2, 0, 0, 0] && d[12..17] == ts;
  }

  /** A notification as main/main.c's callback routes it: CFG bytes to the
      pretty-printer's classifier, DATA bytes to the packet decoder. */
  datatype Notification =
    | CfgNotification(frame: CfgFrames.CfgFrame)
    | DataNotification(packet: Option<Packet>)

  function Route(data: seq<byte>, fromCfg: bool): (n: Notification)
    ensures fromCfg ==> n.CfgNotification? && n.frame == CfgFrames.ClassifyPretty(data)
    ensures !fromCfg ==> n.DataNotification? && (n.packet.Some? <==> IsPacket(data))
  {
    if fromCfg then CfgNotification(CfgFrames.ClassifyPretty(data))
    else DataNotification(Decode(data))
  }
}

=== FILE: discovery.dfy ===
/** Pure pieces of peripheral discovery in components/ble/ble.c: the
    advertised-name filter, the UWB service match and its range fallback,
    and the resolution of the DATA and CFG characteristics.

    The GATT cache Bluedroid builds during service search is an input here
    (`Db`), and the stack's lookup calls are modelled as searches of it. */
module Discovery {
  import opened Common
  import opened Endian

  /** The local names the stack extracts from one advertisement; `None`
      when that AD type is absent. */
  datatype AdvNames = AdvNames(complete: Option<seq<byte>>, short: Option<seq<byte>>)

  /** `name && nlen && nlen == strlen(filter) && memcmp(name, filter, nlen) == 0` */
  predicate NameEquals(name: Option<seq<byte>>, filter: seq<byte>)
  {
    name.Some? && |name.value| != 0 && |name.value| == |filter|
    && forall i :: 0 <= i < |filter| ==> name.value[i] == filter[i]
  }

  /** `adv_name_match`: an empty filter matches anything; otherwise the
      complete or the short local name must equal the filter exactly. */
  function AdvNameMatch(names: AdvNames, filter: seq<byte>): (m: bool)
    ensures m <==> filter == [] || names.complete == Some(filter) || names.short == Some(filter)
  {
    if filter == [] then true
    else if NameEquals(names.complete, filter) then
      assert names.complete.value == filter;
      true
    else
      assert names.short == Some(filter) ==> names.short.value == filter;
      var m := NameEquals(names.short, filter);
      assert m ==> names.short.value == filter;
      m
  }

  datatype Uuid = Uuid16(v16: u16) | Uuid32(v32: u32) | Uuid128(bytes: seq<byte>)

  /** 12345678-1234-5678-1234-1234567890AB in the stack's byte order
      (least significant byte first) ... */
  const ServiceUuid: seq<byte> :=
    [0xAB, 0x90, 0x78, 0x56, 0x34, 0x12, 0x34, 0x12, 0x78, 0x56, 0x34, 0x12, 0x78, 0x56, 0x34, 0x12]

  /** ... and as written, accepted as a safeguard. */
  const ServiceUuidBe: seq<byte> :=
    [0x12, 0x34, 0x56, 0x78, 0x12, 0x34, 0x56, 0x78, 0x12, 0x34, 0x12, 0x34, 0x56, 0x78, 0x90, 0xAB]

  /** ABCDEF01-1234-5678-1234-1234567890AB, stack byte order. */
  const DataUuid: seq<byte> :=
    [0xAB, 0x90, 0x78, 0x56, 0x34, 0x12, 0x34, 0x12, 0x78, 0x56, 0x34, 0x12, 0x01, 0xEF, 0xCD, 0xAB]

  /** ABCDEF02-1234-5678-1234-1234567890AB, stack byte order. */
  const CfgUuid: seq<byte> :=
    [0xAB, 0x90, 0x78, 0x56, 0x34, 0x12, 0x34, 0x12, 0x78, 0x56, 0x34, 0x12, 0x02, 0xEF, 0xCD, 0xAB]

  function Reverse(s: seq<byte>): (r: seq<byte>)
    ensures |r| == |s|
    ensures forall i :: 0 <= i < |s| ==> r[i] == s[|s| - 1 - i]
  {
    seq(|s|, i requires 0 <= i < |s| => s[|s| - 1 - i])
  }

  /** The SEARCH_RES test: a 128-bit UUID equal to the service UUID in either
      byte order. */
  predicate IsServiceUuid(u: Uuid)
  {
    u.Uuid128? && (u.bytes == ServiceUuid || u.bytes == ServiceUuidBe)
  }

  /** The two accepted forms are byte reversals of each other, so the match
      does not depend on the order the stack reports the bytes in. */
  lemma ServiceMatchEitherOrder(b: seq<byte>)
    ensures IsServiceUuid(Uuid128(b)) <==> IsServiceUuid(Uuid128(Reverse(b)))
  {
    ServiceFormsReversed();
    ReverseInvolutive(b);
    ReverseInvolutive(ServiceUuid);
  }

  lemma ServiceFormsReversed()
    ensures Reverse(ServiceUuid) == ServiceUuidBe
  {
    var r := Reverse(ServiceUuid);
    assert r[..8] == ServiceUuidBe[..8];
    assert r[8..] == ServiceUuidBe[8..];
    assert r == r[..8] + r[8..];
  }

  lemma ReverseInvolutive(s: seq<byte>)
    ensures Reverse(Reverse(s)) == s
  {
    var r := Reverse(Reverse(s));
    assert forall i | 0 <= i < |s| :: r[i] == s[i];
  }

  /** The SEARCH_CMPL fallback: when either bound of the found range is 0,
      the whole handle space 0x0001..0xFFFF is searched instead. */
  function EffectiveRange(start: u16, end: u16): (r: (u16, u16))
    ensures r.0 != 0 && r.1 != 0
    ensures start != 0 && end != 0 ==> r == (start, end)
    ensures r != (start, end) ==> r == (1, 0xFFFF)
  {
    if start == 0 || end == 0 then (1, 0xFFFF) else (start, end)
  }

  /** Characteristic property bits, as `esp_gatt_char_prop_t` numbers them. */
  const BitRead := 1
  const BitWriteNoResponse := 2
  const BitWrite := 3
  const BitNotify := 4

  function Pow2(k: nat): (p: nat)
    ensures p >= 1
  {
    if k == 0 then 1 else 2 * Pow2(k - 1)
  }

  predicate HasBit(props: byte, k: nat)
  {
    (props / Pow2(k)) % 2 == 1
  }

  datatype CharElem = CharElem(handle: u16, props: byte)

  /** A notify+read characteristic: what the fallback takes for DATA. */
  predicate IsDataCandidate(c: CharElem)
  {
    HasBit(c.props, BitNotify) && HasBit(c.props, BitRead)
  }

  /** A notify characteristic that can be written, with or without response. */
  predicate IsCfgCandidate(c: CharElem)
  {
    HasBit(c.props, BitNotify) && (HasBit(c.props, BitWrite) || HasBit(c.props, BitWriteNoResponse))
  }

  /** The `have_data`/`have_cfg` flags and the two handles of SEARCH_CMPL. */
  datatype Resolution = Resolution(haveData: bool, haveCfg: bool, dataHandle: u16, cfgHandle: u16)

  /** The property-based loop over all characteristics (ble.c, fallback 2):
      among notify characteristics in list order, a readable one fills a
      missing DATA handle, otherwise a writable one fills a missing CFG. */
  function Fallback(list: seq<CharElem>, r: Resolution): Resolution
    decreases |list|
  {
    if list == [] then r
    else
      var c := list[0];
      var p := c.props;
      var next :=
        if HasBit(p, BitNotify) then
          if !r.haveData && HasBit(p, BitRead) then r.(haveData := true, dataHandle := c.handle)
          else if !r.haveCfg && (HasBit(p, BitWrite) || HasBit(p, BitWriteNoResponse)) then
            r.(haveCfg := true, cfgHandle := c.handle)
          else r
        else r;
      Fallback(list[1..], next)
  }

  /** Index of the first DATA candidate. */
  function FirstData(list: seq<CharElem>): (o: Option<nat>)
    ensures o.Some? ==> o.value < |list| && IsDataCandidate(list[o.value])
    ensures o.Some? ==> forall j :: 0 <= j < o.value ==> !IsDataCandidate(list[j])
    ensures o.None? ==> forall j :: 0 <= j < |list| ==> !IsDataCandidate(list[j])
  {
    if list == [] then None
    else if IsDataCandidate(list[0]) then Some(0)
    else Shift(FirstData(list[1..]))
  }

  /** Index of the first CFG candidate other than the one at `skip`. */
  function FirstCfg(list: seq<CharElem>, skip: Option<nat>): (o: Option<nat>)
    ensures o.Some? ==> o.value < |list| && IsCfgCandidate(list[o.value]) && skip != o
    ensures o.Some? ==> forall j :: 0 <= j < o.value ==> !IsCfgCandidate(list[j]) || skip == Some(j)
    ensures o.None? ==> forall j :: 0 <= j < |list| ==> !IsCfgCandidate(list[j]) || skip == Some(j)
  {
    if list == [] then None
    else if IsCfgCandidate(list[0]) && skip != Some(0) then Some(0)
    else Shift(FirstCfg(list[1..], Unshift(skip)))
  }

  function Shift(o: Option<nat>): Option<nat>
  {
    if o.Some? then Some(o.value + 1) else None
  }

  function Unshift(o: Option<nat>): Option<nat>
  {
    if o.Some? && o.value > 0 then Some(o.value - 1) else None
  }

  /** What the fallback computes, stated without its loop: DATA is the first
      notify+read characteristic; CFG is the first notify+writable one that
      was not taken as DATA; a handle already resolved is left alone. */
  function FallbackSpec(list: seq<CharElem>, r: Resolution): Resolution
  {
    var d := if r.haveData then None else FirstData(list);
    var c := if r.haveCfg then None else FirstCfg(list, d);
    Resolution(
      r.haveData || d.Some?, r.haveCfg || c.Some?,
      if d.Some? then list[d.value].handle else r.dataHandle,
      if c.Some? then list[c.value].handle else r.cfgHandle)
  }

  /** The loop computes its specification. */
  lemma {:induction false} FallbackMeetsSpec(list: seq<CharElem>, r: Resolution)
    ensures Fallback(list, r) == FallbackSpec(list, r)
    decreases |list|
  {
    if list != [] {
      var c := list[0];
      var rest := list[1..];
      if IsDataCandidate(c) && !r.haveData {
        var next := r.(haveData := true, dataHandle := c.handle);
        assert Fallback(list, r) == Fallback(rest, next);
        SpecTakesData(list, r);
        FallbackMeetsSpec(rest, next);
      } else if IsCfgCandidate(c) && !r.haveCfg {
        var next := r.(haveCfg := true, cfgHandle := c.handle);
        assert Fallback(list, r) == Fallback(rest, next);
        SpecTakesCfg(list, r);
        FallbackMeetsSpec(rest, next);
      } else {
        assert Fallback(list, r) == Fallback(rest, r);
        SpecSkips(list, r);
        FallbackMeetsSpec(rest, r);
      }
    }
  }

  /** A first characteristic that fills the missing DATA handle. */
  lemma SpecTakesData(list: seq<CharElem>, r: Resolution)
    requires list != [] && IsDataCandidate(list[0]) && !r.haveData
    ensures FallbackSpec(list, r)
         == FallbackSpec(list[1..], r.(haveData := true, dataHandle := list[0].handle))
  {
    assert FirstData(list) == Some(0);
    assert FirstCfg(list, Some(0)) == Shift(FirstCfg(list[1..], None));
  }

  /** A first characteristic that fills the missing CFG handle. */
  lemma SpecTakesCfg(list: seq<CharElem>, r: Resolution)
    requires list != [] && IsCfgCandidate(list[0]) && !r.haveCfg
    requires r.haveData || !IsDataCandidate(list[0])
    ensures FallbackSpec(list, r)
         == FallbackSpec(list[1..], r.(haveCfg := true, cfgHandle := list[0].handle))
  {
    if !r.haveData {
      assert FirstData(list) == Shift(FirstData(list[1..]));
    }
    var d := if r.haveData then None else FirstData(list);
    assert FirstCfg(list, d) == Some(0);
  }

  /** A first characteristic that fills neither missing handle. */
  lemma SpecSkips(list: seq<CharElem>, r: Resolution)
    requires list != []
    requires r.haveData || !IsDataCandidate(list[0])
    requires r.haveCfg || !IsCfgCandidate(list[0])
    ensures FallbackSpec(list, r) == FallbackSpec(list[1..], r)
  {
    var rest := list[1..];
    var d := if r.haveData then None else FirstData(list);
    if !r.haveData {
      assert FirstData(list) == Shift(FirstData(rest));
    }
    if !r.haveCfg {
      assert Unshift(d) == (if r.haveData then None else FirstData(rest));
      assert FirstCfg(list, d) == Shift(FirstCfg(rest, Unshift(d)));
    }
  }

  /** One characteristic never fills both roles in the fallback. */
  lemma FallbackNeverShares(list: seq<CharElem>)
    ensures var d := FirstData(list);
            var c := FirstCfg(list, d);
            d.Some? && c.Some? ==> d.value != c.value
  {
  }

  /** One characteristic in the GATT cache after service search. */
  datatype DbChar = DbChar(uuid: Uuid, handle: u16, props: byte, ccc: Option<u16>)

  predicate InRange(c: DbChar, start: u16, end: u16)
  {
    start <= c.handle <= end
  }

  /** `esp_ble_gattc_get_char_by_uuid` with room for one result: the first
      characteristic of the range with that UUID. */
  function CharByUuid(db: seq<DbChar>, start: u16, end: u16, uuid: Uuid): (o: Option<u16>)
    ensures o.Some? <==> exists i :: 0 <= i < |db| && InRange(db[i], start, end) && db[i].uuid == uuid
    ensures o.Some? ==> exists i :: 0 <= i < |db| && InRange(db[i], start, end) && db[i].uuid == uuid
                                    && db[i].handle == o.value
  {
    if db == [] then None
    else if InRange(db[0], start, end) && db[0].uuid == uuid then Some(db[0].handle)
    else
      var o := CharByUuid(db[1..], start, end, uuid);
      assert forall i :: 1 <= i < |db| ==> db[i] == db[1..][i - 1];
      o
  }

  /** The list entry the stack reports for a cached characteristic. */
  function ElemOf(c: DbChar): CharElem
  {
    CharElem(c.handle, c.props)
  }

  /** `esp_ble_gattc_get_all_char` over the range: exactly the cached
      characteristics inside it (`CharsInRangeAppend` adds that they keep
      the cache order). */
  function CharsInRange(db: seq<DbChar>, start: u16, end: u16): (l: seq<CharElem>)
    ensures |l| <= |db|
    ensures forall e :: e in l <==>
      exists i :: 0 <= i < |db| && InRange(db[i], start, end) && e == ElemOf(db[i])
  {
    if db == [] then []
    else
      var rest := CharsInRange(db[1..], start, end);
      assert forall i :: 1 <= i < |db| ==> db[i] == db[1..][i - 1];
      assert forall i :: 0 <= i < |db[1..]| ==> db[1..][i] == db[i + 1];
      if InRange(db[0], start, end) then [ElemOf(db[0])] + rest else rest
  }

  lemma ConsAppend<T>(x: T, a: seq<T>, b: seq<T>)
    ensures [x] + (a + b) == ([x] + a) + b
  {
  }

  /** The list of a cache made of two parts is the list of the first part
      followed by the list of the second: entries keep the cache order. */
  lemma {:induction false} CharsInRangeAppend(a: seq<DbChar>, b: seq<DbChar>, start: u16, end: u16)
    ensures CharsInRange(a + b, start, end) == CharsInRange(a, start, end) + CharsInRange(b, start, end)
    decreases |a|
  {
    if a != [] {
      assert (a + b)[0] == a[0] && (a + b)[1..] == a[1..] + b;
      CharsInRangeAppend(a[1..], b, start, end);
      if InRange(a[0], start, end) {
        ConsAppend(ElemOf(a[0]), CharsInRange(a[1..], start, end), CharsInRange(b, start, end));
      }
    } else {
      assert a + b == b;
    }
  }

  /** `esp_ble_gattc_get_descr_by_char_handle` for the Client Characteristic
      Configuration descriptor. */
  function CccOf(db: seq<DbChar>, handle: u16): Option<u16>
  {
    if db == [] then None
    else if db[0].handle == handle then db[0].ccc
    else CccOf(db[1..], handle)
  }

  /** SEARCH_CMPL step 1: each characteristic found by its UUID; a handle
      not found keeps the value held before. */
  function ByUuid(db: seq<DbChar>, start: u16, end: u16, data: u16, cfg: u16): (r: Resolution)
    ensures r.haveData <==> CharByUuid(db, start, end, Uuid128(DataUuid)).Some?
    ensures r.haveCfg <==> CharByUuid(db, start, end, Uuid128(CfgUuid)).Some?
    ensures r.haveData ==> r.dataHandle == CharByUuid(db, start, end, Uuid128(DataUuid)).value
    ensures r.haveCfg ==> r.cfgHandle == CharByUuid(db, start, end, Uuid128(CfgUuid)).value
    ensures !r.haveData ==> r.dataHandle == data
    ensures !r.haveCfg ==> r.cfgHandle == cfg
  {
    var byData := CharByUuid(db, start, end, Uuid128(DataUuid));
    var byCfg := CharByUuid(db, start, end, Uuid128(CfgUuid));
    Resolution(
      byData.Some?, byCfg.Some?,
      if byData.Some? then byData.value else data,
      if byCfg.Some? then byCfg.value else cfg)
  }

  /** SEARCH_CMPL steps 1 and 2: a UUID match first; the property fallback
      only when either is still missing and the characteristic list could be
      allocated, starting from the handles already held. */
  function Resolve(db: seq<DbChar>, start: u16, end: u16, data: u16, cfg: u16, allocOk: bool)
    : (r: Resolution)
    ensures var r0 := ByUuid(db, start, end, data, cfg);
            r == if (!r0.haveData || !r0.haveCfg) && allocOk
                 then FallbackSpec(CharsInRange(db, start, end), r0) else r0
    ensures CharByUuid(db, start, end, Uuid128(DataUuid)).Some? ==>
      r.dataHandle == CharByUuid(db, start, end, Uuid128(DataUuid)).value
    ensures CharByUuid(db, start, end, Uuid128(CfgUuid)).Some? ==>
      r.cfgHandle == CharByUuid(db, start, end, Uuid128(CfgUuid)).value
    ensures r.haveData <==> CharByUuid(db, start, end, Uuid128(DataUuid)).Some?
                            || (allocOk && FirstData(CharsInRange(db, start, end)).Some?)
    ensures var list := CharsInRange(db, start, end);
            var byData := CharByUuid(db, start, end, Uuid128(DataUuid));
            r.haveCfg <==> CharByUuid(db, start, end, Uuid128(CfgUuid)).Some?
                           || (allocOk && FirstCfg(list, if byData.Some? then None else FirstData(list)).Some?)
    ensures !r.haveData ==> r.dataHandle == data
    ensures !r.haveCfg ==> r.cfgHandle == cfg
  {
    var r0 := ByUuid(db, start, end, data, cfg);
    FallbackMeetsSpec(CharsInRange(db, start, end), r0);
    if (!r0.haveData || !r0.haveCfg) && allocOk then Fallback(CharsInRange(db, start, end), r0)
    else r0
  }
}

=== FILE: endian.dfy ===
/** Byte-order readers and writers.

    `BeValue` and `LeValue` are the reference meaning of a byte string read
    most- or least-significant byte first; the fixed-width readers of the
    firmware (main/main.c `rd16be`/`rd32be`, components/ble/pretty_print.c
    `rd32le`/`rd40le`) are written out with their shifts as multiplications
    (the or-ed byte lanes never overlap, so `|` is `+`) and proved equal to
    the reference. `ToBe`/`ToLe` encode, and each pair is shown to be mutually
    inverse. */
module Endian {
  import opened Common

  /** 256 to the power n: the number of distinct n-byte strings. */
  function Pow256(n: nat): (p: nat)
    ensures p >= 1
  {
    if n == 0 then 1 else 256 * Pow256(n - 1)
  }

  /** The unsigned value of `b`, most significant byte first. */
  function BeValue(b: seq<byte>): nat
  {
    if b == [] then 0 else BeValue(b[..|b| - 1]) * 256 + b[|b| - 1] as int
  }

  /** The unsigned value of `b`, least significant byte first. */
  function LeValue(b: seq<byte>): nat
  {
    if b == [] then 0 else b[0] as int + 256 * LeValue(b[1..])
  }

  /** The low `n` bytes of `v`, most significant first. */
  function ToBe(v: nat, n: nat): (b: seq<byte>)
    ensures |b| == n
  {
    if n == 0 then [] else ToBe(v / 256, n - 1) + [v % 256]
  }

  /** The low `n` bytes of `v`, least significant first. */
  function ToLe(v: nat, n: nat): (b: seq<byte>)
    ensures |b| == n
  {
    if n == 0 then [] else [v % 256] + ToLe(v / 256, n - 1)
  }

  lemma DivMod256(q: nat, r: nat)
    requires r < 256
    ensures (q * 256 + r) / 256 == q
    ensures (q * 256 + r) % 256 == r
  {
  }

  /** A value below `256 * p` is its high part, below `p`, and its low byte. */
  lemma SplitLowByte(v: nat, p: nat)
    requires v < 256 * p
    ensures v / 256 < p
    ensures v == (v / 256) * 256 + v % 256
  {
  }

  /** An n-byte string denotes a value below 256^n, in either byte order. */
  lemma {:induction false} BeValueBound(b: seq<byte>)
    ensures BeValue(b) < Pow256(|b|)
  {
    if b != [] {
      BeValueBound(b[..|b| - 1]);
    }
  }

  lemma {:induction false} LeValueBound(b: seq<byte>)
    ensures LeValue(b) < Pow256(|b|)
  {
    if b != [] {
      LeValueBound(b[1..]);
    }
  }

  /** Reading back what `ToBe` wrote gives the value, when it fits. */
  lemma {:induction false} BeRoundTrip(v: nat, n: nat)
    requires v < Pow256(n)
    ensures BeValue(ToBe(v, n)) == v
  {
    if n > 0 {
      var b := ToBe(v, n);
      SplitLowByte(v, Pow256(n - 1));
      assert b[..n - 1] == ToBe(v / 256, n - 1);
      BeRoundTrip(v / 256, n - 1);
      assert BeValue(b) == BeValue(b[..n - 1]) * 256 + v % 256;
    }
  }

  lemma {:induction false} LeRoundTrip(v: nat, n: nat)
    requires v < Pow256(n)
    ensures LeValue(ToLe(v, n)) == v
  {
    if n > 0 {
      var b := ToLe(v, n);
      SplitLowByte(v, Pow256(n - 1));
      assert b[1..] == ToLe(v / 256, n - 1);
      LeRoundTrip(v / 256, n - 1);
      assert LeValue(b) == v % 256 + 256 * LeValue(b[1..]);
    }
  }

  /** Writing back what was read reproduces the bytes. */
  lemma {:induction false} BeInverse(b: seq<byte>)
    ensures ToBe(BeValue(b), |b|) == b
  {
    if b != [] {
      var init := b[..|b| - 1];
      BeInverse(init);
      DivMod256(BeValue(init), b[|b| - 1]);
      assert b == init + [b[|b| - 1]];
    }
  }

  lemma {:induction false} LeInverse(b: seq<byte>)
    ensures ToLe(LeValue(b), |b|) == b
  {
    if b != [] {
      LeInverse(b[1..]);
      DivMod256(LeValue(b[1..]), b[0]);
      assert b == [b[0]] + b[1..];
    }
  }

  /** Appending a byte shifts the big-endian value up by one byte. */
  lemma BeSnoc(b: seq<byte>, x: byte)
    ensures BeValue(b + [x]) == BeValue(b) * 256 + x
  {
    assert (b + [x])[..|b|] == b;
  }

  /** Prepending a byte shifts the little-endian value up by one byte. */
  lemma LeCons(x: byte, b: seq<byte>)
    ensures LeValue([x] + b) == x + 256 * LeValue(b)
  {
    assert ([x] + b)[1..] == b;
  }

  /** main/main.c `rd16be` */
  function Rd16Be(v: seq<byte>): (r: u16)
    requires |v| == 2
    ensures r == BeValue(v)
  {
    BeSnoc([], v[0]);
    BeSnoc([v[0]], v[1]);
    assert v == [v[0]] + [v[1]];
    v[0] as int * 0x100 + v[1]
  }

  /** main/main.c `rd32be` */
  function Rd32Be(v: seq<byte>): (r: u32)
    requires |v| == 4
    ensures r == BeValue(v)
  {
    BeSnoc([], v[0]);
    BeSnoc(v[..1], v[1]);
    BeSnoc(v[..2], v[2]);
    BeSnoc(v[..3], v[3]);
    assert v[..1] == [] + [v[0]] && v[..2] == v[..1] + [v[1]];
    assert v[..3] == v[..2] + [v[2]] && v == v[..3] + [v[3]];
    v[0] as int * 0x100_0000 + v[1] as int * 0x1_0000 + v[2] as int * 0x100 + v[3]
  }

  /** components/ble/pretty_print.c `rd32le` */
  function Rd32Le(p: seq<byte>): (r: u32)
    requires |p| == 4
    ensures r == LeValue(p)
  {
    LeCons(p[3], []);
    LeCons(p[2], p[3..]);
    LeCons(p[1], p[2..]);
    LeCons(p[0], p[1..]);
    assert p[3..] == [p[3]] + [] && p[2..] == [p[2]] + p[3..];
    assert p[1..] == [p[1]] + p[2..] && p == [p[0]] + p[1..];
    p[0] as int + p[1] as int * 0x100 + p[2] as int * 0x1_0000 + p[3] as int * 0x100_0000
  }

  /** components/ble/pretty_print.c `rd40le`; its type already says the
      result is below 2^40. */
  function Rd40Le(p: seq<byte>): (r: u40)
    requires |p| == 5
    ensures r == LeValue(p)
  {
    LeCons(p[4], []);
    LeCons(p[3], p[4..]);
    LeCons(p[2], p[3..]);
    LeCons(p[1], p[2..]);
    LeCons(p[0], p[1..]);
    assert p[4..] == [p[4]] + [] && p[3..] == [p[3]] + p[4..];
    assert p[2..] == [p[2]] + p[3..];
    assert p[1..] == [p[1]] + p[2..] && p == [p[0]] + p[1..];
    p[0] as int + p[1] as int * 0x100 + p[2] as int * 0x1_0000 + p[3] as int * 0x100_0000
      + p[4] as int * 0x1_0000_0000
  }

  /** The two bytes a big-endian 16-bit field occupies on the wire. */
  function Be16Bytes(x: u16): (b: seq<byte>)
    ensures |b| == 2 && Rd16Be(b) == x
  {
    BeRoundTrip(x, 2);
    ToBe(x, 2)
  }

  function Be32Bytes(x: u32): (b: seq<byte>)
    ensures |b| == 4 && Rd32Be(b) == x
  {
    BeRoundTrip(x, 4);
    ToBe(x, 4)
  }

  function Le32Bytes(x: u32): (b: seq<byte>)
    ensures |b| == 4 && Rd32Le(b) == x
  {
    LeRoundTrip(x, 4);
    ToLe(x, 4)
  }

  function Le40Bytes(x: u40): (b: seq<byte>)
    ensures |b| == 5 && Rd40Le(b) == x
  {
    LeRoundTrip(x, 5);
    ToLe(x, 5)
  }

  /** The readers are injective: encoding what they read gives the bytes back. */
  lemma ReadersInvert(b2: seq<byte>, b4: seq<byte>, b5: seq<byte>)
    requires |b2| == 2 && |b4| == 4 && |b5| == 5
    ensures Be16Bytes(Rd16Be(b2)) == b2
    ensures Be32Bytes(Rd32Be(b4)) == b4
    ensures Le32Bytes(Rd32Le(b4)) == b4
    ensures Le40Bytes(Rd40Le(b5)) == b5
  {
    BeInverse(b2);
    BeInverse(b4);
    LeInverse(b4);
    LeInverse(b5);
  }
}

=== FILE: http_bridge.dfy ===
/** The BLE-to-HTTP bridge of components/webserver/http_server.c: the
    notification callback that captures ACKs and accumulates CFG records into
    the `s_cfg` mirror, and the start of the `/api/dwm_get` handler that
    clears the mirror and sends a GET with the next request id.

    The two binary semaphores become the `Signal` a notification gives. */
module HttpBridge {
  import opened Common
  import opened Endian
  import opened Tlv
  import CfgFrames
  import BleLink

  /** `have[11]`: one flag per mirrored field, and a spare one. */
  type Flags = s: seq<bool> | |s| == 11
    witness [false, false, false, false, false, false, false, false, false, false, false]

  /** `s_cfg`. */
  datatype CfgMirror = CfgMirror(
    networkId: u16, zoneId: u16, hbMs: u16, phySfdto: u16,
    anchorId: u32,
    txAntDly: i32, rxAntDly: i32, biasTicks: i32,
    logLevel: byte, phyCh: byte,
    have: Flags)

  /** `memset(&s_cfg, 0, sizeof(s_cfg))`. */
  const Zeroed := CfgMirror(0, 0, 0, 0, 0, 0, 0, 0, 0, 0,
    [false, false, false, false, false, false, false, false, false, false, false])

  /** The module's static state: the mirror, the last request id, and the
      status and applied count of the last ACK. */
  datatype Bridge = Bridge(cfg: CfgMirror, lastReq: u16, ackStatus: byte, applied: byte)

  /** Which semaphore a notification gives. */
  datatype Signal = AckSignal | TlvSignal | NoSignal

  /** The have-flag slot of each mirrored tag ... */
  const SlotIndex: map<byte, nat> := map[
    0x10 := 0, 0x11 := 1, 0x12 := 2, 0x20 := 3, 0x1F := 4,
    0x13 := 5, 0x14 := 6, 0x16 := 7, 0x40 := 8, 0x49 := 9]

  /** ... and the only value width at which it is taken. */
  const SlotWidth: map<byte, nat> := map[
    0x10 := 2, 0x11 := 2, 0x12 := 4, 0x20 := 2, 0x1F := 1,
    0x13 := 4, 0x14 := 4, 0x16 := 4, 0x40 := 1, 0x49 := 2]

  /** The mirrored field behind a have-flag slot. */
  function FieldOf(c: CfgMirror, k: nat): int
  {
    match k
    case 0 => c.networkId
    case 1 => c.zoneId
    case 2 => c.anchorId
    case 3 => c.hbMs
    case 4 => c.logLevel
    case 5 => c.txAntDly
    case 6 => c.rxAntDly
    case 7 => c.biasTicks
    case 8 => c.phyCh
    case 9 => c.phySfdto
    case _ => 0
  }

  predicate Applies(r: Record)
  {
    r.tag in SlotIndex && r.tag in SlotWidth && |r.value| == SlotWidth[r.tag]
  }

  /** The bridge reads each tag it shares with the log decoder at the same
      width ... */
  lemma WidthsAgreeWithLog()
    ensures forall t :: t in SlotWidth && t in CfgFrames.LogWidths ==> SlotWidth[t] == CfgFrames.LogWidths[t]
  {
    assert SlotWidth.Keys == {0x10, 0x11, 0x12, 0x20, 0x1F, 0x13, 0x14, 0x16, 0x40, 0x49};
  }

  /** ... and with the same signedness: of its 4-byte fields only the
      anchor id is unsigned. */
  lemma SignednessAgreesWithLog()
    ensures forall t :: t in SlotWidth && SlotWidth[t] == 4 ==> (t in CfgFrames.SignedTags <==> t != 0x12)
  {
    assert SlotWidth.Keys == {0x10, 0x11, 0x12, 0x20, 0x1F, 0x13, 0x14, 0x16, 0x40, 0x49};
  }

  /** One arm of the `switch (t)`: a known tag at its width stores its value
      (big-endian, two's complement for the antenna delays and bias) and sets
      its have-flag; anything else changes nothing. */
  function ApplyRecord(c: CfgMirror, r: Record): (c': CfgMirror)
    ensures Applies(r) ==> c'.have == c.have[SlotIndex[r.tag] := true]
    ensures !Applies(r) ==> c' == c
  {
    var t := r.tag;
    var v := r.value;
    var l := |v|;
    if t == 0x10 && l == 2 then c.(networkId := Rd16Be(v), have := c.have[0 := true])
    else if t == 0x11 && l == 2 then c.(zoneId := Rd16Be(v), have := c.have[1 := true])
    else if t == 0x12 && l == 4 then c.(anchorId := Rd32Be(v), have := c.have[2 := true])
    else if t == 0x20 && l == 2 then c.(hbMs := Rd16Be(v), have := c.have[3 := true])
    else if t == 0x1F && l == 1 then c.(logLevel := v[0], have := c.have[4 := true])
    else if t == 0x13 && l == 4 then c.(txAntDly := ToInt32(Rd32Be(v)), have := c.have[5 := true])
    else if t == 0x14 && l == 4 then c.(rxAntDly := ToInt32(Rd32Be(v)), have := c.have[6 := true])
    else if t == 0x16 && l == 4 then c.(biasTicks := ToInt32(Rd32Be(v)), have := c.have[7 := true])
    else if t == 0x40 && l == 1 then c.(phyCh := v[0], have := c.have[8 := true])
    else if t == 0x49 && l == 2 then c.(phySfdto := Rd16Be(v), have := c.have[9 := true])
    else c
  }

  /** A record that applies stores its value, decoded as the log decoder
      decodes it, in its own field and leaves the other nine alone. */
  lemma ApplyRecordStores(c: CfgMirror, r: Record)
    requires Applies(r)
    ensures var k := SlotIndex[r.tag];
            FieldOf(ApplyRecord(c, r), k) == CfgFrames.FieldValue(r.tag, r.value)
            && forall j :: 0 <= j < 10 && j != k ==> FieldOf(ApplyRecord(c, r), j) == FieldOf(c, j)
  {
  }

  /** The record loop with its `first` flag: the first tag-0x00 record is
      skipped, and the flag is cleared only by that skip. */
  function ApplyAll(c: CfgMirror, rs: seq<Record>, first: bool): CfgMirror
    decreases |rs|
  {
    if rs == [] then c
    else if first && rs[0].tag == 0x00 then ApplyAll(c, rs[1..], false)
    else ApplyAll(ApplyRecord(c, rs[0]), rs[1..], first)
  }

  /** The skip changes nothing: tag 0x00 has no arm in the switch, so
      skipping it and applying it agree. */
  lemma {:induction false} SkipIsIrrelevant(c: CfgMirror, rs: seq<Record>)
    ensures ApplyAll(c, rs, true) == ApplyAll(c, rs, false)
    decreases |rs|
  {
    if rs != [] {
      if rs[0].tag == 0x00 {
        assert ApplyRecord(c, rs[0]) == c;
      } else {
        SkipIsIrrelevant(ApplyRecord(c, rs[0]), rs[1..]);
      }
    }
  }

  /** Have-flags only go from false to true, and the spare flag is never
      set. */
  lemma {:induction false} ApplyAllMonotone(c: CfgMirror, rs: seq<Record>, first: bool)
    ensures forall k :: 0 <= k < 11 && c.have[k] ==> ApplyAll(c, rs, first).have[k]
    ensures ApplyAll(c, rs, first).have[10] == c.have[10]
    decreases |rs|
  {
    if rs != [] {
      if first && rs[0].tag == 0x00 {
        ApplyAllMonotone(c, rs[1..], false);
      } else {
        ApplyAllMonotone(ApplyRecord(c, rs[0]), rs[1..], first);
      }
    }
  }

  /** A field's have-flag ends up set exactly when it was set before or
      some record of the stream carries that field at its width. */
  lemma {:induction false} ApplyAllSetsFlags(c: CfgMirror, rs: seq<Record>, k: nat)
    requires k < 10
    ensures ApplyAll(c, rs, false).have[k] <==>
      c.have[k] || exists i :: 0 <= i < |rs| && Applies(rs[i]) && SlotIndex[rs[i].tag] == k
    decreases |rs|
  {
    if rs != [] {
      var c1 := ApplyRecord(c, rs[0]);
      ApplyAllSetsFlags(c1, rs[1..], k);
      assert forall i :: 1 <= i < |rs| ==> rs[i] == rs[1..][i - 1];
      if (exists i :: 0 <= i < |rs[1..]| && Applies(rs[1..][i]) && SlotIndex[rs[1..][i].tag] == k) {
        var i :| 0 <= i < |rs[1..]| && Applies(rs[1..][i]) && SlotIndex[rs[1..][i].tag] == k;
        assert rs[i + 1] == rs[1..][i];
      }
    }
  }

  /** No record of `rs` has tag 0x00, so the `first` flag is still set
      after them. */
  predicate NoSkip(rs: seq<Record>)
  {
    forall i :: 0 <= i < |rs| ==> rs[i].tag != 0x00
  }

  /** Applying one more record at the end: it is skipped exactly when it is
      the first tag-0x00 record of the stream. */
  lemma {:induction false} ApplyAllSnoc(c: CfgMirror, rs: seq<Record>, r: Record, first: bool)
    ensures ApplyAll(c, rs + [r], first)
         == if first && NoSkip(rs) && r.tag == 0x00 then ApplyAll(c, rs, first)
            else ApplyRecord(ApplyAll(c, rs, first), r)
    decreases |rs|
  {
    if rs == [] {
      assert [] + [r] == [r];
    } else {
      var x, rest := rs[0], rs[1..];
      assert (rs + [r])[0] == x && (rs + [r])[1..] == rest + [r];
      if first && x.tag == 0x00 {
        ApplyAllSnoc(c, rest, r, false);
      } else {
        ApplyAllSnoc(ApplyRecord(c, x), rest, r, first);
        if first {
          assert NoSkip(rs) <==> NoSkip(rest) by {
            assert forall i :: 1 <= i < |rs| ==> rs[i] == rest[i - 1];
          }
        }
      }
    }
  }

  lemma NoSkipSnoc(rs: seq<Record>, r: Record)
    ensures NoSkip(rs + [r]) <==> NoSkip(rs) && r.tag != 0x00
  {
    var s := rs + [r];
    assert s[|rs|] == r;
    assert forall i :: 0 <= i < |rs| ==> s[i] == rs[i];
  }

  /** The body of the record loop: skip the first tag-0x00 record and
      clear `first`, otherwise run the `switch` on the record. Over the
      records seen so far it extends `ApplyAll` by one. */
  method TakeRecord(ghost c0: CfgMirror, ghost recs: seq<Record>, c: CfgMirror, first: bool, rec: Record)
    returns (c': CfgMirror, first': bool)
    requires c == ApplyAll(c0, recs, true) && first == NoSkip(recs)
    ensures c' == ApplyAll(c0, recs + [rec], true) && first' == NoSkip(recs + [rec])
  {
    ApplyAllSnoc(c0, recs, rec, true);
    NoSkipSnoc(recs, rec);
    if first && rec.tag == 0x00 {
      c', first' := c, false;
    } else {
      c', first' := ApplyRecord(c, rec), first;
    }
  }

  /** The loop of lines 34-54. Its cursor and remaining count walk the
      buffer exactly as `WalkByCursor` does, and the walk never looks at
      the mirror, so the model walks first and then takes the records in
      order; the result is `ApplyAll` over the walk. */
  method Accumulate(c0: CfgMirror, p: seq<byte>) returns (c: CfgMirror)
    ensures c == ApplyAll(c0, Parse(p).records, true)
  {
    var recs, _ := WalkByCursor(p);
    c := c0;
    var first := true;
    var i := 0;
    while i < |recs|
      invariant 0 <= i <= |recs|
      invariant c == ApplyAll(c0, recs[..i], true) && first == NoSkip(recs[..i])
    {
      assert recs[..i + 1] == recs[..i] + [recs[i]];
      c, first := TakeRecord(c0, recs[..i], c, first, recs[i]);
      i := i + 1;
    }
    assert recs[..i] == recs;
  }

  /** True when an ACK frame `[1, 0x81, req_hi, req_lo, status, applied]`. */
  predicate IsAckFrame(d: seq<byte>)
  {
    |d| == 6 && d[0] == 1 && d[1] == 0x81
  }

  /** Whether the TLV semaphore is given: network id, anchor id or
      heartbeat period known. */
  predicate TlvReady(c: CfgMirror)
  {
    c.have[0] || c.have[2] || c.have[3]
  }

  /** `on_ble_notify`; `p` is `None` for a null pointer. */
  function OnNotify(b: Bridge, p: Option<seq<byte>>, fromCfg: bool): (res: (Bridge, Signal))
    requires p.Some? ==> |p.value| <= 0xFFFF
    ensures !fromCfg || p.None? || |p.value| < 1 ==> res == (b, NoSignal)
    ensures fromCfg && p.Some? && IsAckFrame(p.value) ==>
      res == (b.(ackStatus := p.value[4], applied := p.value[5]), AckSignal)
    ensures res.0.lastReq == b.lastReq
    ensures res.1 == TlvSignal <==>
      fromCfg && p.Some? && |p.value| >= 1 && !IsAckFrame(p.value) && TlvReady(res.0.cfg)
    ensures res.1 != AckSignal ==> res.0.ackStatus == b.ackStatus && res.0.applied == b.applied
    ensures forall k :: 0 <= k < 11 && b.cfg.have[k] ==> res.0.cfg.have[k]
  {
    if !fromCfg || p.None? || |p.value| < 1 then (b, NoSignal)
    else
      var d := p.value;
      if IsAckFrame(d) then (b.(ackStatus := d[4], applied := d[5]), AckSignal)
      else
        var c := ApplyAll(b.cfg, Parse(d).records, true);
        ApplyAllMonotone(b.cfg, Parse(d).records, true);
        (b.(cfg := c), if TlvReady(c) then TlvSignal else NoSignal)
  }

  /** An ACK is taken whatever request id it carries: the bytes at 2 and 3
      are never compared with the id last sent. */
  lemma AckIgnoresRequestId(b: Bridge, d: seq<byte>, hi: byte, lo: byte)
    requires IsAckFrame(d)
    ensures OnNotify(b, Some(d[2 := hi][3 := lo]), true) == OnNotify(b, Some(d), true)
  {
  }

  /** A CFG notification that is not an ACK stores exactly the records its
      walk yields, the first tag-0x00 record included or not. */
  lemma NotifyAppliesWalk(b: Bridge, d: seq<byte>)
    requires 1 <= |d| <= 0xFFFF && !IsAckFrame(d)
    ensures OnNotify(b, Some(d), true).0 == b.(cfg := ApplyAll(b.cfg, Parse(d).records, false))
  {
    SkipIsIrrelevant(b.cfg, Parse(d).records);
  }

  /** The start of `dwm_get_handler`: clear the mirror, advance the request
      id with 16-bit wrap-around, and send a GET carrying it. */
  function BeginGet(b: Bridge, link: BleLink.Link, ok: bool): (res: (Bridge, BleLink.Call))
    ensures res.0.cfg == Zeroed && !TlvReady(res.0.cfg)
    ensures res.0.lastReq == (b.lastReq + 1) % 0x1_0000
    ensures res.0.ackStatus == b.ackStatus && res.0.applied == b.applied
    ensures res.1 == BleLink.SendGet(link, res.0.lastReq, ok)
  {
    var id := (b.lastReq + 1) % 0x1_0000;
    (b.(cfg := Zeroed, lastReq := id), BleLink.SendGet(link, id, ok))
  }

  /** `n` GETs in a row use the ids after the starting one, modulo 2^16. */
  function GetsInARow(b: Bridge, link: BleLink.Link, n: nat): Bridge
  {
    if n == 0 then b else BeginGet(GetsInARow(b, link, n - 1), link, true).0
  }

  lemma {:induction false} RequestIdsAdvance(b: Bridge, link: BleLink.Link, n: nat)
    ensures GetsInARow(b, link, n).lastReq == (b.lastReq + n) % 0x1_0000
  {
    if n > 0 {
      RequestIdsAdvance(b, link, n - 1);
    }
  }
}

=== FILE: tlv.dfy ===
/** The `[tag, len, value...]` record stream carried by CFG notifications
    and by the SET payload.

    All three decoders of the firmware (main/main.c `parse_cfg_notify`,
    components/ble/pretty_print.c `pp_log_cfg`, components/webserver/http_server.c
    `on_ble_notify`) walk the stream the same way: while at least two bytes
    remain, read a tag and a length; if the length exceeds what remains, stop;
    otherwise take the value and advance by `2 + len` whatever the tag.
    `Parse` is that walk as a function, characterised completely by its
    contract; `WalkByCursor` and `WalkByIndex` are the two loop shapes the
    sources use, each proved to compute `Parse`. */
module Tlv {
  import opened Common

  datatype Record = Record(tag: byte, value: seq<byte>)

  /** A record whose value length fits the one-byte length field. */
  predicate WellFormed(r: Record)
  {
    |r.value| < 0x100
  }

  predicate AllWellFormed(rs: seq<Record>)
  {
    forall i :: 0 <= i < |rs| ==> WellFormed(rs[i])
  }

  function EncodeRecord(r: Record): (b: seq<byte>)
    requires WellFormed(r)
    ensures |b| == 2 + |r.value|
  {
    [r.tag, |r.value|] + r.value
  }

  /** The bytes of a record sequence laid end to end. */
  function Encode(rs: seq<Record>): (b: seq<byte>)
    requires AllWellFormed(rs)
  {
    if rs == [] then [] else EncodeRecord(rs[0]) + Encode(rs[1..])
  }

  /** Why a walk ended: fewer than two bytes were left (a lone trailing byte
      is ignored), or a record announced more bytes than remained. */
  datatype Stop = Exhausted | Truncated

  datatype Walk = Walk(records: seq<Record>, stop: Stop)

  /** What the walk does with the bytes that remain at a stop point. */
  predicate StopsAt(rest: seq<byte>, stop: Stop)
  {
    match stop
    case Exhausted => |rest| < 2
    case Truncated => |rest| >= 2 && rest[1] as int > |rest| - 2
  }

  /** The record walk of the three decoders. `ParseSpec` states what it
      computes. */
  function Parse(s: seq<byte>): Walk
    decreases |s|
  {
    if |s| < 2 then Walk([], Exhausted)
    else if s[1] as int > |s| - 2 then Walk([], Truncated)
    else
      var w := Parse(s[2 + s[1]..]);
      Walk([Record(s[0], s[2..2 + s[1]])] + w.records, w.stop)
  }

  /** The walk is determined by this contract: the records are well formed
      and are exactly the bytes consumed, so no byte beyond the buffer is
      read, and the walk ends at the first point where it must. */
  lemma {:induction false} ParseSpec(s: seq<byte>)
    ensures AllWellFormed(Parse(s).records)
    ensures Encode(Parse(s).records) <= s
    ensures StopsAt(s[|Encode(Parse(s).records)|..], Parse(s).stop)
    decreases |s|
  {
    if |s| >= 2 && s[1] as int <= |s| - 2 {
      var r := Record(s[0], s[2..2 + s[1]]);
      var rest := s[2 + s[1]..];
      ParseSpec(rest);
      var w := Parse(rest);
      EncodeCons(r, w.records);
      SplitFirst(s);
      ParseAfterRecord(r, rest);
      ConsumedPrefix(EncodeRecord(r), Encode(w.records), rest);
    }
  }

  /** A buffer holding a complete first record is that record's bytes
      followed by the rest. */
  lemma SplitFirst(s: seq<byte>)
    requires |s| >= 2 && s[1] as int <= |s| - 2
    ensures WellFormed(Record(s[0], s[2..2 + s[1]]))
    ensures s == EncodeRecord(Record(s[0], s[2..2 + s[1]])) + s[2 + s[1]..]
  {
    assert s == s[..2] + s[2..2 + s[1]] + s[2 + s[1]..];
  }

  /** Prefixes and the remainders after them survive prepending a block. */
  lemma ConsumedPrefix(head: seq<byte>, used: seq<byte>, rest: seq<byte>)
    requires used <= rest
    ensures head + used <= head + rest
    ensures (head + rest)[|head + used|..] == rest[|used|..]
  {
  }

  lemma EncodeCons(r: Record, rs: seq<Record>)
    requires WellFormed(r) && AllWellFormed(rs)
    ensures AllWellFormed([r] + rs)
    ensures Encode([r] + rs) == EncodeRecord(r) + Encode(rs)
  {
    assert ([r] + rs)[1..] == rs;
  }

  /** One step of the walk, for a buffer that holds a complete first record. */
  lemma ParseStep(s: seq<byte>)
    requires |s| >= 2 && s[1] as int <= |s| - 2
    ensures Parse(s) == Walk([Record(s[0], s[2..2 + s[1]])] + Parse(s[2 + s[1]..]).records,
                             Parse(s[2 + s[1]..]).stop)
  {
  }

  lemma ConsAppend<T>(x: T, a: seq<T>, b: seq<T>)
    ensures [x] + (a + b) == ([x] + a) + b
  {
  }

  lemma SnocAppend<T>(a: seq<T>, x: T, b: seq<T>)
    ensures a + ([x] + b) == (a + [x]) + b
  {
  }

  /** A record followed by any bytes walks to that record, then the rest. */
  lemma ParseAfterRecord(r: Record, rest: seq<byte>)
    requires WellFormed(r)
    ensures Parse(EncodeRecord(r) + rest) == Walk([r] + Parse(rest).records, Parse(rest).stop)
  {
    var s := EncodeRecord(r) + rest;
    var l := |r.value|;
    assert s[0] == r.tag && s[1] as int == l;
    assert s[2..2 + l] == r.value;
    assert s[2 + l..] == rest;
    ParseStep(s);
  }

  /** Walking well-formed records followed by any tail yields those records
      and then whatever the tail yields. */
  lemma {:induction false} ParseAppend(rs: seq<Record>, tail: seq<byte>)
    requires AllWellFormed(rs)
    ensures Parse(Encode(rs) + tail)
         == Walk(rs + Parse(tail).records, Parse(tail).stop)
  {
    if rs == [] {
      assert Encode(rs) + tail == tail;
      assert rs + Parse(tail).records == Parse(tail).records;
    } else {
      var r, more := rs[0], rs[1..];
      assert rs == [r] + more;
      EncodeCons(r, more);
      assert Encode(rs) + tail == EncodeRecord(r) + (Encode(more) + tail);
      ParseAfterRecord(r, Encode(more) + tail);
      ParseAppend(more, tail);
      ConsAppend(r, more, Parse(tail).records);
    }
  }

  /** Round trip: concatenated well-formed records walk back to themselves,
      unknown tags and raw values included. */
  lemma ParseEncode(rs: seq<Record>)
    requires AllWellFormed(rs)
    ensures Parse(Encode(rs)) == Walk(rs, Exhausted)
  {
    ParseAppend(rs, []);
    assert Encode(rs) + [] == Encode(rs);
  }

  /** A lone byte after complete records is ignored, not an error. */
  lemma TrailingByteIgnored(rs: seq<Record>, x: byte)
    requires AllWellFormed(rs)
    ensures Parse(Encode(rs) + [x]) == Walk(rs, Exhausted)
  {
    ParseAppend(rs, [x]);
  }

  /** A record that announces more bytes than remain ends the walk, and every
      record before it is kept. */
  lemma TruncationKeepsPrefix(rs: seq<Record>, tag: byte, len: byte, partial: seq<byte>)
    requires AllWellFormed(rs)
    requires |partial| < len
    ensures Parse(Encode(rs) + [tag, len] + partial) == Walk(rs, Truncated)
  {
    var tail := [tag, len] + partial;
    TruncatedHead(tag, len, partial);
    AppendAssoc(Encode(rs), [tag, len], partial);
    ParseAppend(rs, tail);
    assert rs + [] == rs;
  }

  /** A record header announcing more bytes than follow it walks to nothing. */
  lemma TruncatedHead(tag: byte, len: byte, partial: seq<byte>)
    requires |partial| < len
    ensures Parse([tag, len] + partial) == Walk([], Truncated)
  {
    var t := [tag, len] + partial;
    assert t[1] == len && |t| == 2 + |partial|;
  }

  lemma AppendAssoc<T>(a: seq<T>, b: seq<T>, c: seq<T>)
    ensures a + b + c == a + (b + c)
  {
  }

  /** Slicing a suffix `p[q..]` is slicing `p` shifted by `q`. */
  lemma SuffixSlices<T>(p: seq<T>, q: nat, i: nat, j: nat)
    requires q + j <= |p| && i <= j
    ensures p[q..][i..j] == p[q + i..q + j]
    ensures p[q..][j..] == p[q + j..]
  {
  }

  /** The walk of `p` is `recs` followed by the walk from offset `q`. */
  predicate WalkedTo(p: seq<byte>, q: nat, recs: seq<Record>)
  {
    q <= |p| && Parse(p) == Walk(recs + Parse(p[q..]).records, Parse(p[q..]).stop)
  }

  /** A walk that has produced `recs` up to offset `q` and finds a
      complete record `rec` there goes on from `next` with it appended. */
  lemma WalkOn(p: seq<byte>, q: nat, recs: seq<Record>, rec: Record, next: nat)
    requires q + 2 <= |p| && p[q + 1] as int <= |p| - q - 2
    requires next == q + 2 + p[q + 1] as int && rec == Record(p[q], p[q + 2..next])
    requires WalkedTo(p, q, recs)
    ensures WalkedTo(p, next, recs + [rec])
  {
    var l := p[q + 1] as int;
    SuffixSlices(p, q, 2, 2 + l);
    ParseStep(p[q..]);
    SnocAppend(recs, rec, Parse(p[next..]).records);
  }

  /** A walk that finds a record announcing more bytes than remain ends
      there with what it has. */
  lemma WalkTruncated(p: seq<byte>, q: nat, recs: seq<Record>)
    requires q + 2 <= |p| && p[q + 1] as int > |p| - q - 2
    requires WalkedTo(p, q, recs)
    ensures Parse(p) == Walk(recs, Truncated)
  {
    assert Parse(p[q..]) == Walk([], Truncated);
    assert recs + [] == recs;
  }

  /** A walk with fewer than two bytes left ends with what it has. */
  lemma WalkExhausted(p: seq<byte>, q: nat, recs: seq<Record>)
    requires |p| - q < 2
    requires WalkedTo(p, q, recs)
    ensures Parse(p) == Walk(recs, Exhausted)
  {
    assert Parse(p[q..]) == Walk([], Exhausted);
    assert recs + [] == recs;
  }

  /** The walk of anything starts empty at offset 0. */
  lemma WalkStarts(p: seq<byte>)
    ensures WalkedTo(p, 0, [])
  {
    assert p[0..] == p;
    assert [] + Parse(p).records == Parse(p).records;
  }

  /** The loop of main/main.c `parse_cfg_notify` (and of http_server.c
      `on_ble_notify`): a pointer `q` and a remaining count `r`. */
  method WalkByCursor(p: seq<byte>) returns (recs: seq<Record>, stop: Stop)
    ensures Parse(p) == Walk(recs, stop)
  {
    var q := 0;
    var r := |p|;
    recs := [];
    stop := Exhausted;
    WalkStarts(p);
    while r >= 2
      invariant q + r == |p|
      invariant WalkedTo(p, q, recs)
      decreases r
    {
      ghost var q0 := q;
      var t := p[q];
      var l := p[q + 1];
      q := q + 2;
      r := r - 2;
      if r < l as int {
        stop := Truncated;
        WalkTruncated(p, q0, recs);
        return;
      }
      var rec := Record(t, p[q..q + l]);
      WalkOn(p, q0, recs, rec, q + l as int);
      recs := recs + [rec];
      q := q + l;
      r := r - l;
    }
    WalkExhausted(p, q, recs);
  }

  /** The loop of components/ble/pretty_print.c `pp_log_cfg`: one index `i`
      that strictly increases while `i + 2 <= n`. */
  method WalkByIndex(d: seq<byte>) returns (recs: seq<Record>, stop: Stop)
    ensures Parse(d) == Walk(recs, stop)
  {
    var n := |d|;
    var i := 0;
    recs := [];
    stop := Exhausted;
    WalkStarts(d);
    while i + 2 <= n
      invariant n == |d|
      invariant WalkedTo(d, i, recs)
      decreases n - i
    {
      ghost var i0 := i;
      var t := d[i];
      i := i + 1;
      var l := d[i];
      i := i + 1;
      if i + l as int > n {
        stop := Truncated;
        WalkTruncated(d, i0, recs);
        return;
      }
      var rec := Record(t, d[i..i + l]);
      WalkOn(d, i0, recs, rec, i + l as int);
      recs := recs + [rec];
      i := i + l;
    }
    WalkExhausted(d, i, recs);
  }
}

=== FILE: web_auth.dfy ===
/** Authentication and role gating of components/webserver/webserver.cpp:
    the user table, the role landing pages, the session cookie, and
    `require_role`.

    The clock, the random session id and the Base64 decoding of a Basic
    `Authorization` header are inputs: `now`, `sid`, and the decoded
    credentials. */
module WebAuth {
  import opened Common
  import opened CText

  /** `user_role_t`, ordered NONE < DIAG < BLE < ROOT. */
  datatype Role = RoleNone | RoleDiag | RoleBle | RoleRoot

  function Rank(r: Role): nat
  {
    match r
    case RoleNone => 0
    case RoleDiag => 1
    case RoleBle => 2
    case RoleRoot => 3
  }

  /** `uri_for_role`: where an authenticated role is sent. */
  function UriForRole(r: Role): (u: CStr)
    ensures u == "/login" <==> r == RoleNone
  {
    match r
    case RoleRoot => "/admin"
    case RoleBle => "/super_user.html"
    case RoleDiag => "/diag"
    case RoleNone => "/login"
  }

  /** Different roles land on different pages. */
  lemma UriForRoleInjective(a: Role, b: Role)
    requires UriForRole(a) == UriForRole(b)
    ensures a == b
  {
  }

  /** The GET pages `webserver_start` registers with a `require_role`
      gate, and the role each handler demands. */
  const GatedGets: map<CStr, Role> := map[
    "/diag" := RoleDiag,
    "/ble-data" := RoleBle,
    "/admin" := RoleRoot,
    "/super_user.html" := RoleBle,
    "/api/config" := RoleBle]

  /** The one gated POST: the partial configuration update. */
  const GatedPosts: map<CStr, Role> := map["/api/config" := RoleBle]

  /** What `require_role` does to a request it refuses. */
  datatype Gate = Admit | Unauthorized | RedirectToLogin

  /** `require_role`: admit when the caller's role is at least the one
      needed; otherwise API and auth URIs get 401 and pages a 302 to
      `/login`. */
  function RequireRole(have: Role, need: Role, uri: CStr): (g: Gate)
    ensures g == Admit <==> Rank(have) >= Rank(need)
    ensures g == Unauthorized <==>
      Rank(have) < Rank(need) && (StartsWith(uri, "/api/") || StartsWith(uri, "/auth/"))
  {
    if Rank(have) < Rank(need) then
      if StartsWith(uri, "/api/") || StartsWith(uri, "/auth/") then Unauthorized
      else RedirectToLogin
    else Admit
  }

  /** Every role's landing page lets that role in: `/login` is not gated,
      and each other landing page demands exactly the role sent there. */
  lemma LandingPageAdmitsRole(r: Role)
    ensures UriForRole(r) !in GatedGets <==> r == RoleNone
    ensures UriForRole(r) in GatedGets ==>
      GatedGets[UriForRole(r)] == r && RequireRole(r, GatedGets[UriForRole(r)], UriForRole(r)) == Admit
  {
  }

  /** A higher role is admitted wherever a lower one is. */
  lemma GateMonotone(lo: Role, hi: Role, need: Role, uri: CStr)
    requires Rank(lo) <= Rank(hi)
    requires RequireRole(lo, need, uri) == Admit
    ensures RequireRole(hi, need, uri) == Admit
  {
  }

  /** One row of the `users` table; the null sentinel has no name. */
  datatype User = User(name: Option<CStr>, pass: Option<CStr>, role: Role)

  const Users: seq<User> := [
    User(Some("diag"), Some("diag"), RoleDiag),
    User(Some("admin"), Some("admin"), RoleBle),
    User(Some("root"), Some("root"), RoleRoot),
    User(None, None, RoleNone)]

  predicate Matches(x: User, u: CStr, p: CStr)
  {
    x.name == Some(u) && x.pass == Some(p)
  }

  /** The `check_user` loop over a table: the role of the first entry whose
      name and password both match, `RoleNone` when none does. */
  function CheckUserIn(table: seq<User>, u: CStr, p: CStr): (r: Role)
    ensures forall i :: (0 <= i < |table| && Matches(table[i], u, p)
                         && (forall j :: 0 <= j < i ==> !Matches(table[j], u, p))) ==> r == table[i].role
    ensures (forall i :: 0 <= i < |table| ==> !Matches(table[i], u, p)) ==> r == RoleNone
  {
    if table == [] then RoleNone
    else if table[0].name.Some? && table[0].name.value == u && table[0].pass == Some(p) then table[0].role
    else
      var r := CheckUserIn(table[1..], u, p);
      assert forall i :: 1 <= i < |table| ==> table[i] == table[1..][i - 1];
      r
  }

  function CheckUser(u: CStr, p: CStr): Role
  {
    CheckUserIn(Users, u, p)
  }

  /** Exactly three credential pairs get in, each with its own role; the
      user called "admin" gets the BLE role, not ROOT. */
  lemma CheckUserTable(u: CStr, p: CStr)
    ensures CheckUser("diag", "diag") == RoleDiag
    ensures CheckUser("admin", "admin") == RoleBle
    ensures CheckUser("root", "root") == RoleRoot
    ensures CheckUser(u, p) != RoleNone ==> u == p && (u == "diag" || u == "admin" || u == "root")
  {
    assert Matches(Users[0], "diag", "diag");
    assert Matches(Users[1], "admin", "admin");
    assert !Matches(Users[0], "admin", "admin");
    assert Matches(Users[2], "root", "root");
    assert !Matches(Users[0], "root", "root") && !Matches(Users[1], "root", "root");
  }

  /** The cookie attribute that carries the session id. */
  const SidKey: CStr := "SID="

  /** `sid[33]`: at most 32 characters are copied. */
  const MaxSid := 32

  /** The copy loop of `role_from_cookie`: up to `;`, the end of the
      string, or 32 characters. */
  function TakeSid(s: CStr): (sid: CStr)
    ensures |sid| <= MaxSid && sid <= s && ';' !in sid
    ensures |sid| < MaxSid ==> |sid| == |s| || s[|sid|] == ';'
  {
    if s == [] || s[0] == ';' then []
    else
      var rest := TakeSid(s[1..]);
      if |rest| == MaxSid then [s[0]] + rest[..MaxSid - 1] else [s[0]] + rest
  }

  /** The session id a `Cookie` header names: what follows the first
      `SID=`, or nothing when there is none. */
  function ExtractSid(cookie: CStr): (o: Option<CStr>)
    ensures o.None? <==> FindSub(cookie, SidKey).None?
    ensures o.Some? ==> o.value == TakeSid(cookie[FindSub(cookie, SidKey).value + |SidKey|..])
  {
    match FindSub(cookie, SidKey)
    case None => None
    case Some(m) => Some(TakeSid(cookie[m + |SidKey|..]))
  }

  /** One slot of `g_sess`. */
  datatype Session = Session(sid: CStr, role: Role, expires: u32)

  /** The test of `role_from_cookie`: a used slot, the same id, not yet
      expired. */
  predicate Grants(s: Session, sid: CStr, now: u32)
  {
    |s.sid| > 0 && s.sid == sid && s.expires > now
  }

  /** The role of the first session that grants `sid`. */
  function FirstGrant(sessions: seq<Session>, sid: CStr, now: u32): (r: Role)
    ensures forall i :: (0 <= i < |sessions| && Grants(sessions[i], sid, now)
                         && (forall j :: 0 <= j < i ==> !Grants(sessions[j], sid, now))) ==> r == sessions[i].role
    ensures (forall i :: 0 <= i < |sessions| ==> !Grants(sessions[i], sid, now)) ==> r == RoleNone
    ensures r != RoleNone ==> exists i :: 0 <= i < |sessions| && Grants(sessions[i], sid, now) && sessions[i].role == r
  {
    if sessions == [] then RoleNone
    else if |sessions[0].sid| > 0 && sessions[0].sid == sid && sessions[0].expires > now then sessions[0].role
    else
      var r := FirstGrant(sessions[1..], sid, now);
      assert forall i :: 1 <= i < |sessions| ==> sessions[i] == sessions[1..][i - 1];
      r
  }

  /** `role_from_cookie`; an absent header reads as the empty string. */
  function RoleFromCookie(sessions: seq<Session>, cookie: CStr, now: u32): (r: Role)
    ensures FindSub(cookie, SidKey).None? ==> r == RoleNone
    ensures r != RoleNone ==> exists i :: 0 <= i < |sessions| && sessions[i].role == r
    ensures ExtractSid(cookie).Some? ==> r == FirstGrant(sessions, ExtractSid(cookie).value, now)
  {
    if cookie == [] then RoleNone
    else match ExtractSid(cookie)
      case None => RoleNone
      case Some(sid) => FirstGrant(sessions, sid, now)
  }

  /** `role_from_auth`: a session cookie wins; otherwise the decoded Basic
      credentials are looked up in the user table. */
  function RoleFromAuth(sessions: seq<Session>, cookie: CStr, basic: Option<(CStr, CStr)>, now: u32)
    : (r: Role)
    ensures RoleFromCookie(sessions, cookie, now) != RoleNone ==> r == RoleFromCookie(sessions, cookie, now)
    ensures RoleFromCookie(sessions, cookie, now) == RoleNone && basic.None? ==> r == RoleNone
    ensures RoleFromCookie(sessions, cookie, now) == RoleNone && basic.Some? ==>
      r == CheckUser(basic.value.0, basic.value.1)
  {
    var c := RoleFromCookie(sessions, cookie, now);
    if c != RoleNone then c
    else if basic.None? then RoleNone
    else CheckUser(basic.value.0, basic.value.1)
  }

  /** Session lifetime in seconds, also the cookie's `Max-Age`. */
  const SessionSeconds := 86400

  /** What `mk_sid` produces: 32 lower-case hexadecimal digits. */
  predicate IsSid(s: CStr)
  {
    |s| == MaxSid && forall i :: 0 <= i < |s| ==> s[i] in "0123456789abcdef"
  }

  function SetCookie(sid: CStr): CStr
  {
    SidKey + sid + "; Path=/; HttpOnly; Max-Age=86400"
  }

  /** The successful part of `auth_login_post`: slot 0 of the session table
      is overwritten with the new session, expiring a day later (32-bit
      seconds), and the cookie naming it is returned. Bad credentials give
      `None`, the 401. */
  function Login(sessions: seq<Session>, u: CStr, p: CStr, sid: CStr, now: u32)
    : (res: Option<(seq<Session>, CStr)>)
    requires |sessions| == 4
    ensures res.None? <==> CheckUser(u, p) == RoleNone
    ensures res.Some? ==>
      |res.value.0| == 4 && res.value.0[1..] == sessions[1..]
      && res.value.0[0].sid == sid && res.value.0[0].role == CheckUser(u, p)
    ensures res.Some? ==>
      res.value.0[0].expires == (if now as int + SessionSeconds < 0x1_0000_0000 then now as int + SessionSeconds
                                 else now as int + SessionSeconds - 0x1_0000_0000)
      && res.value.1 == SetCookie(sid)
  {
    var r := CheckUser(u, p);
    if r == RoleNone then None
    else Some((sessions[0 := Session(sid, r, (now + SessionSeconds) % 0x1_0000_0000)], SetCookie(sid)))
  }

  lemma TakeSidOfCookieTail(sid: CStr, tail: CStr)
    requires IsSid(sid) && |tail| > 0 && tail[0] == ';'
    ensures TakeSid(sid + tail) == sid
    decreases |sid|
  {
    var k := |sid|;
    TakeSidPrefix(sid + tail, k);
    assert (sid + tail)[..k] == sid;
  }

  /** `TakeSid` keeps any `;`-free run of at most 32 characters that is
      followed by `;` or the end. */
  lemma TakeSidPrefix(s: CStr, k: nat)
    requires k <= |s| && k <= MaxSid
    requires forall i :: 0 <= i < k ==> s[i] != ';'
    requires k == MaxSid || k == |s| || s[k] == ';'
    ensures TakeSid(s) == s[..k]
  {
    var sid := TakeSid(s);
    assert sid == s[..|sid|];
  }

  /** The cookie a login sets names the session id it was given. */
  lemma CookieNamesSid(sid: CStr)
    requires IsSid(sid)
    ensures ExtractSid(SetCookie(sid)) == Some(sid)
  {
    var cookie := SetCookie(sid);
    var tail: CStr := "; Path=/; HttpOnly; Max-Age=86400";
    assert cookie == SidKey + (sid + tail);
    assert OccursAt(cookie, SidKey, 0);
    assert FindSub(cookie, SidKey) == Some(0);
    assert cookie[|SidKey|..] == sid + tail;
    TakeSidOfCookieTail(sid, tail);
  }

  /** The login round trip: the cookie a login hands out reads back, on the
      next request within a day, as the role the credentials carry. */
  lemma LoginCookieGrantsRole(sessions: seq<Session>, u: CStr, p: CStr, sid: CStr, now: u32, later: u32)
    requires |sessions| == 4
    requires IsSid(sid) && CheckUser(u, p) != RoleNone
    requires now <= later < now + SessionSeconds < 0x1_0000_0000
    ensures var res := Login(sessions, u, p, sid, now).value;
            RoleFromCookie(res.0, res.1, later) == CheckUser(u, p)
  {
    var res := Login(sessions, u, p, sid, now).value;
    assert res.1 == SetCookie(sid);
    CookieNamesSid(sid);
    var first := res.0[0];
    assert first.expires == now + SessionSeconds;
    assert Grants(first, sid, later);
  }
}

=== FILE: web_config.dfy ===
/** The partial configuration update of components/webserver/webserver.cpp
    (`api_config_post`): the key finder, the numeric field parsers on top of
    `strtoul`/`strtol`, and the field-by-field update of `g_cfg`.

    `strtoul` and `strtol` follow the C library's digit rules (ISO C11
    section 7.22.1.4) with a 32-bit `long`, as on the ESP32: leading white
    space, an optional sign, an optional `0x` for base 16, the longest run of
    digits of the base, and saturation on overflow. */
module WebConfig {
  import opened Common
  import opened CText
  import opened WebAuth

  /** `isspace` in the C locale. */
  predicate IsSpace(c: char)
  {
    c == ' ' || c == '\t' || c == '\n' || c == '\U{0B}' || c == '\U{0C}' || c == '\r'
  }

  /** The value of a digit character in bases up to 36. */
  function DigitOf(c: char): Option<nat>
  {
    if '0' <= c <= '9' then Some(c as int - '0' as int)
    else if 'a' <= c <= 'z' then Some(c as int - 'a' as int + 10)
    else if 'A' <= c <= 'Z' then Some(c as int - 'A' as int + 10)
    else None
  }

  predicate IsDigitIn(c: char, base: nat)
  {
    DigitOf(c).Some? && DigitOf(c).value < base
  }

  /** The string after its leading white space. */
  function TrimLeft(s: string): (t: string)
    ensures |t| <= |s| && t == s[|s| - |t|..]
    ensures t == [] || !IsSpace(t[0])
  {
    if s != [] && IsSpace(s[0]) then
      var t := TrimLeft(s[1..]);
      assert forall i :: 1 <= i < |s| ==> s[i] == s[1..][i - 1];
      t
    else s
  }

  /** The values of the longest run of base-`base` digits at the start. */
  function DigitRun(s: string, base: nat): (ds: seq<nat>)
    ensures |ds| <= |s|
    ensures forall i :: 0 <= i < |ds| ==> ds[i] < base && DigitOf(s[i]) == Some(ds[i])
    ensures |ds| < |s| ==> !IsDigitIn(s[|ds|], base)
  {
    if s != [] && IsDigitIn(s[0], base) then [DigitOf(s[0]).value] + DigitRun(s[1..], base)
    else []
  }

  /** Positional value, most significant digit first. */
  function DigitsValue(ds: seq<nat>, base: nat): nat
  {
    if ds == [] then 0 else DigitsValue(ds[..|ds| - 1], base) * base + ds[|ds| - 1]
  }

  /** What the scan of a number finds before the conversion to a C type. */
  datatype Scan = Scan(negative: bool, magnitude: nat)

  function StripHexPrefix(u: string, base: nat): string
  {
    if base == 16 && |u| >= 2 && u[0] == '0' && (u[1] == 'x' || u[1] == 'X') then u[2..] else u
  }

  /** The value of the digit run at the start of `u`, after a `0x` or `0X`
      prefix in base 16. */
  function Magnitude(u: string, base: nat): (m: nat)
    ensures base == 16 && |u| >= 2 && u[0] == '0' && (u[1] == 'x' || u[1] == 'X') ==>
      m == DigitsValue(DigitRun(u[2..], base), base)
    ensures !(base == 16 && |u| >= 2 && u[0] == '0' && (u[1] == 'x' || u[1] == 'X')) ==>
      m == DigitsValue(DigitRun(u, base), base)
  {
    DigitsValue(DigitRun(StripHexPrefix(u, base), base), base)
  }

  /** White space, sign, `0x` prefix in base 16, digit run. A `0x` with no
      hex digit after it yields 0 whether or not the prefix is consumed. */
  function ScanNumber(s: string, base: nat): (r: Scan)
    ensures s == [] ==> r == Scan(false, 0)
    ensures s != [] && (s[0] == '-' || s[0] == '+') ==> r == Scan(s[0] == '-', Magnitude(s[1..], base))
    ensures s != [] && !IsSpace(s[0]) && s[0] != '-' && s[0] != '+' ==> r == Scan(false, Magnitude(s, base))
  {
    var t := TrimLeft(s);
    var neg := t != [] && t[0] == '-';
    var u := if t != [] && (t[0] == '-' || t[0] == '+') then t[1..] else t;
    Scan(neg, Magnitude(u, base))
  }

  /** Leading white space is skipped one character at a time. */
  lemma ScanSkipsSpace(s: string, base: nat)
    requires s != [] && IsSpace(s[0])
    ensures ScanNumber(s, base) == ScanNumber(s[1..], base)
  {
  }

  const ULongMax := 0xFFFF_FFFF
  const LongMax := 0x7FFF_FFFF
  const LongMin := -0x8000_0000

  /** `strtoul` with a 32-bit `unsigned long`: an overflow gives the
      maximum whatever the sign; a negative number wraps. */
  function StrToUL(s: string, base: nat): (r: u32)
    ensures var sc := ScanNumber(s, base);
            if sc.magnitude > ULongMax then r == ULongMax
            else if sc.negative then r + sc.magnitude == 0 || r + sc.magnitude == 0x1_0000_0000
            else r == sc.magnitude
  {
    var sc := ScanNumber(s, base);
    if sc.magnitude > ULongMax then ULongMax
    else if sc.negative then (if sc.magnitude == 0 then 0 else 0x1_0000_0000 - sc.magnitude)
    else sc.magnitude
  }

  /** `strtol` with a 32-bit `long`: the signed value, clamped to the range. */
  function StrToL(s: string, base: nat): (r: i32)
    ensures var sc := ScanNumber(s, base);
            var m: int := sc.magnitude;
            var v := if sc.negative then -m else m;
            r == (if v < LongMin then LongMin else if v > LongMax then LongMax else v)
  {
    var sc := ScanNumber(s, base);
    var m: int := sc.magnitude;
    if sc.negative then (if m > 0x8000_0000 then LongMin else -m)
    else if sc.magnitude > LongMax then LongMax
    else sc.magnitude
  }

  /** The first index at or after `i` that is not a space. */
  function SkipSpaces(s: string, i: nat): (r: nat)
    requires i <= |s|
    ensures i <= r <= |s|
    ensures forall j :: i <= j < r ==> s[j] == ' '
    ensures r < |s| ==> s[r] != ' '
    decreases |s| - i
  {
    if i < |s| && s[i] == ' ' then SkipSpaces(s, i + 1) else i
  }

  /** `find_key`: the first occurrence of the key, the first `:` from there,
      then spaces are skipped; the value starts at the first other
      character, which is the opening quote of a quoted value. */
  function FindKey(body: CStr, key: CStr): (v: Option<nat>)
    ensures v.Some? ==> v.value <= |body|
    ensures v.Some? <==> FindSub(body, key).Some? && IndexFrom(body, ':', FindSub(body, key).value).Some?
    ensures v.Some? ==>
      var c := IndexFrom(body, ':', FindSub(body, key).value).value;
      c < v.value && (forall j :: c < j < v.value ==> body[j] == ' ')
      && (v.value < |body| ==> body[v.value] != ' ')
  {
    match FindSub(body, key)
    case None => None
    case Some(k) =>
      match IndexFrom(body, ':', k)
      case None => None
      case Some(c) => Some(SkipSpaces(body, c + 1))
  }

  /** `parse_u32`: a quoted value is read in base 16 after the quote, an
      unquoted one in base 10. */
  function ParseU32(body: CStr, key: CStr): (r: Option<u32>)
    ensures r.Some? <==> FindKey(body, key).Some?
    ensures r.Some? ==> r.value == ValueU32(body, FindKey(body, key).value)
  {
    match FindKey(body, key)
    case None => None
    case Some(v) => Some(ValueU32(body, v))
  }

  /** The number at index `at`: hex after an opening quote, else decimal. */
  function ValueU32(body: CStr, at: nat): u32
    requires at <= |body|
  {
    if at < |body| && body[at] == '"' then StrToUL(body[at + 1..], 16)
    else StrToUL(body[at..], 10)
  }

  /** `parse_i32`: as `parse_u32`, with `strtol`. */
  function ParseI32(body: CStr, key: CStr): (r: Option<i32>)
    ensures r.Some? <==> FindKey(body, key).Some?
    ensures r.Some? ==> r.value == ValueI32(body, FindKey(body, key).value)
  {
    match FindKey(body, key)
    case None => None
    case Some(v) => Some(ValueI32(body, v))
  }

  function ValueI32(body: CStr, at: nat): i32
    requires at <= |body|
  {
    if at < |body| && body[at] == '"' then StrToL(body[at + 1..], 16)
    else StrToL(body[at..], 10)
  }

  /** `parse_u16`: the low 16 bits of the 32-bit value. */
  function ParseU16(body: CStr, key: CStr): (r: Option<u16>)
    ensures r.Some? <==> ParseU32(body, key).Some?
    ensures r.Some? ==> r.value == ParseU32(body, key).value % 0x1_0000
  {
    match ParseU32(body, key)
    case None => None
    case Some(x) => Some(x % 0x1_0000)
  }

  /** `parse_u8`: the low 8 bits of the 32-bit value. */
  function ParseU8(body: CStr, key: CStr): (r: Option<byte>)
    ensures r.Some? <==> ParseU32(body, key).Some?
    ensures r.Some? ==> r.value == ParseU32(body, key).value % 0x100
  {
    match ParseU32(body, key)
    case None => None
    case Some(x) => Some(x % 0x100)
  }

  /** `EspCfg`, the configuration mirror the web UI edits. */
  datatype EspCfg = EspCfg(
    networkId: u16, zoneId: u16, anchorId: u32, hbMs: u16, logLevel: byte,
    txAntDly: i32, rxAntDly: i32, biasTicks: i32, phyCh: byte, phySfdto: u16)

  /** The initial `g_cfg`. */
  const DefaultCfg := EspCfg(1, 0x5A31, 1, 10000, 1, 0, 0, 0, 9, 248)

  const KeyNetworkId: CStr := "\"NETWORK_ID\""
  const KeyZoneId: CStr := "\"ZONE_ID\""
  const KeyAnchorId: CStr := "\"ANCHOR_ID\""
  const KeyHbMs: CStr := "\"HB_MS\""
  const KeyLogLevel: CStr := "\"LOG_LEVEL\""
  const KeyTxAntDly: CStr := "\"TX_ANT_DLY\""
  const KeyRxAntDly: CStr := "\"RX_ANT_DLY\""
  const KeyBiasTicks: CStr := "\"BIAS_TICKS\""
  const KeyPhyCh: CStr := "\"PHY_CH\""
  const KeyPhySfdto: CStr := "\"PHY_SFDTO\""

  function Or<T>(o: Option<T>, otherwise: T): T
  {
    if o.Some? then o.value else otherwise
  }

  /** The ten parser calls of `api_config_post`, in order. */
  function ApplyPost(c: EspCfg, body: CStr): (r: EspCfg)
    ensures FindKey(body, KeyNetworkId).None? ==> r.networkId == c.networkId
    ensures FindKey(body, KeyZoneId).None? ==> r.zoneId == c.zoneId
    ensures FindKey(body, KeyAnchorId).None? ==> r.anchorId == c.anchorId
    ensures FindKey(body, KeyHbMs).None? ==> r.hbMs == c.hbMs
    ensures FindKey(body, KeyLogLevel).None? ==> r.logLevel == c.logLevel
    ensures FindKey(body, KeyTxAntDly).None? ==> r.txAntDly == c.txAntDly
    ensures FindKey(body, KeyRxAntDly).None? ==> r.rxAntDly == c.rxAntDly
    ensures FindKey(body, KeyBiasTicks).None? ==> r.biasTicks == c.biasTicks
    ensures FindKey(body, KeyPhyCh).None? ==> r.phyCh == c.phyCh
    ensures FindKey(body, KeyPhySfdto).None? ==> r.phySfdto == c.phySfdto
    ensures FindKey(body, KeyNetworkId).Some? ==> r.networkId == ParseU32(body, KeyNetworkId).value % 0x1_0000
    ensures FindKey(body, KeyZoneId).Some? ==> r.zoneId == ParseU32(body, KeyZoneId).value % 0x1_0000
    ensures FindKey(body, KeyAnchorId).Some? ==> r.anchorId == ParseU32(body, KeyAnchorId).value
    ensures FindKey(body, KeyHbMs).Some? ==> r.hbMs == ParseU32(body, KeyHbMs).value % 0x1_0000
    ensures FindKey(body, KeyLogLevel).Some? ==> r.logLevel == ParseU32(body, KeyLogLevel).value % 0x100
    ensures FindKey(body, KeyTxAntDly).Some? ==> r.txAntDly == ParseI32(body, KeyTxAntDly).value
    ensures FindKey(body, KeyRxAntDly).Some? ==> r.rxAntDly == ParseI32(body, KeyRxAntDly).value
    ensures FindKey(body, KeyBiasTicks).Some? ==> r.biasTicks == ParseI32(body, KeyBiasTicks).value
    ensures FindKey(body, KeyPhyCh).Some? ==> r.phyCh == ParseU32(body, KeyPhyCh).value % 0x100
    ensures FindKey(body, KeyPhySfdto).Some? ==> r.phySfdto == ParseU32(body, KeyPhySfdto).value % 0x1_0000
  {
    EspCfg(
      Or(ParseU16(body, KeyNetworkId), c.networkId),
      Or(ParseU16(body, KeyZoneId), c.zoneId),
      Or(ParseU32(body, KeyAnchorId), c.anchorId),
      Or(ParseU16(body, KeyHbMs), c.hbMs),
      Or(ParseU8(body, KeyLogLevel), c.logLevel),
      Or(ParseI32(body, KeyTxAntDly), c.txAntDly),
      Or(ParseI32(body, KeyRxAntDly), c.rxAntDly),
      Or(ParseI32(body, KeyBiasTicks), c.biasTicks),
      Or(ParseU8(body, KeyPhyCh), c.phyCh),
      Or(ParseU16(body, KeyPhySfdto), c.phySfdto))
  }

  /** Posting the same body twice has the effect of posting it once. */
  lemma ApplyPostIdempotent(c: EspCfg, body: CStr)
    ensures ApplyPost(ApplyPost(c, body), body) == ApplyPost(c, body)
  {
  }

  /** A body that names no key leaves the configuration as it was. */
  lemma ApplyPostNoKeys(c: EspCfg, body: CStr)
    requires forall j :: 0 <= j ==> !OccursAt(body, "\"", j)
    ensures ApplyPost(c, body) == c
  {
    NoQuoteNoKey(body, KeyNetworkId);
    NoQuoteNoKey(body, KeyZoneId);
    NoQuoteNoKey(body, KeyAnchorId);
    NoQuoteNoKey(body, KeyHbMs);
    NoQuoteNoKey(body, KeyLogLevel);
    NoQuoteNoKey(body, KeyTxAntDly);
    NoQuoteNoKey(body, KeyRxAntDly);
    NoQuoteNoKey(body, KeyBiasTicks);
    NoQuoteNoKey(body, KeyPhyCh);
    NoQuoteNoKey(body, KeyPhySfdto);
  }

  lemma NoQuoteNoKey(body: CStr, key: CStr)
    requires |key| > 0 && key[0] == '"'
    requires forall j :: 0 <= j ==> !OccursAt(body, "\"", j)
    ensures FindKey(body, key).None?
  {
    if FindSub(body, key).Some? {
      var k := FindSub(body, key).value;
      assert body[k..k + 1] == "\"";
      assert OccursAt(body, "\"", k);
    }
  }

  /** What `api_config_post` answers. */
  datatype PostOutcome = Refused(gate: Gate) | EmptyBody | ReceiveFailed | Saved

  /** `api_config_post`: the BLE role or higher is required; an empty body
      is refused with 400; the body buffer is NUL-padded, so the parsers
      see its text up to the first NUL. */
  function ConfigPost(role: Role, c: EspCfg, contentLen: int, raw: string, recvOk: bool)
    : (res: (EspCfg, PostOutcome))
    ensures res.1 == Saved <==> Rank(role) >= Rank(RoleBle) && contentLen > 0 && recvOk
    ensures Rank(role) < Rank(RoleBle) ==> res.1 == Refused(Unauthorized)
    ensures Rank(role) >= Rank(RoleBle) && contentLen <= 0 ==> res.1 == EmptyBody
    ensures Rank(role) >= Rank(RoleBle) && contentLen > 0 && !recvOk ==> res.1 == ReceiveFailed
    ensures res.1 != Saved ==> res.0 == c
    ensures res.1 == Saved ==> res.0 == ApplyPost(c, CPrefix(raw))
  {
    var g := RequireRole(role, RoleBle, "/api/config");
    if g != Admit then (c, Refused(g))
    else if contentLen <= 0 then (c, EmptyBody)
    else if !recvOk then (c, ReceiveFailed)
    else (ApplyPost(c, CPrefix(raw)), Saved)
  }

  // Numerals, to state what the parsers read back.

  /** The digits of `v` in `base`, most significant first, no leading zero. */
  function ToDigits(v: nat, base: nat): (ds: seq<nat>)
    requires base >= 2
    ensures |ds| >= 1 && forall i :: 0 <= i < |ds| ==> ds[i] < base
    decreases v
  {
    if v < base then [v]
    else
      DivMod(v, base);
      ToDigits(v / base, base) + [v % base]
  }

  lemma {:induction false} ToDigitsValue(v: nat, base: nat)
    requires base >= 2
    ensures DigitsValue(ToDigits(v, base), base) == v
    decreases v
  {
    if v >= base {
      var q, m := v / base, v % base;
      DivMod(v, base);
      ToDigitsValue(q, base);
      DigitsValueSnoc(ToDigits(q, base), m, base);
    }
  }

  lemma DigitsValueSnoc(xs: seq<nat>, m: nat, base: nat)
    ensures DigitsValue(xs + [m], base) == DigitsValue(xs, base) * base + m
  {
    assert (xs + [m])[..|xs|] == xs;
  }

  lemma DivMod(v: nat, base: nat)
    requires base >= 2
    ensures v == (v / base) * base + v % base
    ensures v >= base ==> 0 < v / base < v
  {
  }

  const DigitChars: string := "0123456789ABCDEF"

  /** `v` written in base 10 or 16 with upper-case hex digits. */
  function Numeral(v: nat, base: nat): (s: string)
    requires base == 10 || base == 16
    ensures |s| >= 1 && forall i :: 0 <= i < |s| ==> IsDigitIn(s[i], base)
  {
    var ds := ToDigits(v, base);
    seq(|ds|, i requires 0 <= i < |ds| => DigitChars[ds[i]])
  }

  /** The digit values of a string of digits. */
  function Values(s: string): (ds: seq<nat>)
    ensures |ds| == |s|
  {
    seq(|s|, i requires 0 <= i < |s| => Or(DigitOf(s[i]), 0))
  }

  lemma {:induction false} DigitRunOfDigits(s: string, rest: string, base: nat)
    requires forall i :: 0 <= i < |s| ==> IsDigitIn(s[i], base)
    requires rest == [] || !IsDigitIn(rest[0], base)
    ensures DigitRun(s + rest, base) == Values(s)
    decreases |s|
  {
    if s == [] {
      assert s + rest == rest;
    } else {
      var t := s + rest;
      assert t[0] == s[0] && IsDigitIn(t[0], base);
      assert t[1..] == s[1..] + rest;
      assert DigitRun(t, base) == [DigitOf(t[0]).value] + DigitRun(t[1..], base);
      DigitRunOfDigits(s[1..], rest, base);
      assert Values(s) == [Values(s)[0]] + Values(s[1..]);
    }
  }

  lemma NumeralDigits(v: nat, base: nat)
    requires base == 10 || base == 16
    ensures var s := Numeral(v, base);
            Values(s) == ToDigits(v, base)
  {
    var s := Numeral(v, base);
    var ds := ToDigits(v, base);
    forall i | 0 <= i < |s|
      ensures Values(s)[i] == ds[i]
    {
      assert s[i] == DigitChars[ds[i]];
    }
  }

  /** The digits of a numeral followed by a non-digit are the numeral's
      value. */
  lemma NumeralRun(v: u32, rest: string, base: nat)
    requires base == 10 || base == 16
    requires rest == [] || !IsDigitIn(rest[0], base)
    ensures DigitsValue(DigitRun(Numeral(v, base) + rest, base), base) == v
  {
    DigitRunOfDigits(Numeral(v, base), rest, base);
    NumeralDigits(v, base);
    ToDigitsValue(v, base);
  }

  /** A decimal numeral reads back as its value when no digit follows. */
  lemma DecimalRoundTrip(v: u32, rest: string, s: string)
    requires rest == [] || !IsDigitIn(rest[0], 10)
    requires s == Numeral(v, 10) + rest
    ensures StrToUL(s, 10) == v
  {
    NumeralRun(v, rest, 10);
    UnsignedScanDec(s);
  }

  /** A `0x` hex numeral reads back as its value in base 16 when no hex
      digit follows. */
  lemma HexRoundTrip(v: u32, rest: string, s: string)
    requires rest == [] || !IsDigitIn(rest[0], 16)
    requires s == "0x" + Numeral(v, 16) + rest
    ensures StrToUL(s, 16) == v
  {
    var d := Numeral(v, 16) + rest;
    assert s == "0x" + d;
    NumeralRun(v, rest, 16);
    UnsignedScanHex(s, d);
  }

  /** A string that starts with neither a space nor a sign is read as is. */
  lemma ScanUnsigned(s: string, base: nat)
    requires s != [] && !IsSpace(s[0]) && s[0] != '-' && s[0] != '+'
    ensures ScanNumber(s, base) == Scan(false, DigitsValue(DigitRun(StripHexPrefix(s, base), base), base))
  {
    assert TrimLeft(s) == s;
  }

  /** A string of digits after `0x` scans in base 16 as a non-negative
      number read from the digits. */
  lemma UnsignedScanHex(s: string, digits: string)
    requires digits != [] && IsDigitIn(digits[0], 16)
    requires s == "0x" + digits
    ensures ScanNumber(s, 16) == Scan(false, DigitsValue(DigitRun(digits, 16), 16))
  {
    assert s[0] == '0' && s[1] == 'x';
    assert s[2..] == digits;
    ScanUnsigned(s, 16);
  }

  /** A string that starts with a decimal digit scans as a non-negative
      number read from its digits. */
  lemma UnsignedScanDec(s: string)
    requires s != [] && IsDigitIn(s[0], 10)
    ensures ScanNumber(s, 10) == Scan(false, DigitsValue(DigitRun(s, 10), 10))
  {
    assert !IsSpace(s[0]) && s[0] != '-' && s[0] != '+';
    ScanUnsigned(s, 10);
  }

  /** `find_key` on `{key:rest`: the value starts right after the colon
      unless a space follows it. */
  lemma FindKeyAt(body: CStr, key: CStr, rest: string)
    requires |key| > 0 && key[0] == '"' && ':' !in key
    requires body == "{" + key + ":" + rest
    requires rest != [] && rest[0] != ' '
    ensures FindKey(body, key) == Some(|key| + 2)
  {
    assert OccursAt(body, key, 1) by { assert body[1..1 + |key|] == key; }
    assert !OccursAt(body, key, 0) by { assert body[0] == '{'; }
    assert FindSub(body, key) == Some(1);
    assert forall j :: 1 <= j < 1 + |key| ==> body[j] == key[j - 1];
    assert body[1 + |key|] == ':';
    assert IndexFrom(body, ':', 1) == Some(1 + |key|);
    assert body[2 + |key|] == rest[0];
  }

  /** The JSON text `{key:rest` posted for one key, with no space after
      the colon: `find_key` lands on the first character of the rest, and
      `parse_u32` returns what `strtoul` reads from there, in base 16 after
      an opening quote and in base 10 otherwise. */
  lemma PostedValue(body: CStr, key: CStr, rest: string, v: u32, quoted: bool)
    requires |key| > 0 && key[0] == '"' && ':' !in key
    requires body == "{" + key + ":" + rest
    requires rest != [] && rest[0] != ' '
    requires quoted ==> rest[0] == '"' && StrToUL(rest[1..], 16) == v
    requires !quoted ==> rest[0] != '"' && StrToUL(rest, 10) == v
    ensures FindKey(body, key) == Some(|key| + 2)
    ensures ParseU32(body, key) == Some(v)
  {
    FindKeyAt(body, key, rest);
    KeyValue(body, key, rest, v, quoted);
    ParseFound(body, key, |key| + 2, v);
  }

  lemma ParseFound(body: CStr, key: CStr, at: nat, v: u32)
    requires FindKey(body, key) == Some(at) && ValueU32(body, at) == v
    ensures ParseU32(body, key) == Some(v)
  {
  }

  lemma KeyValue(body: CStr, key: CStr, rest: string, v: u32, quoted: bool)
    requires |key| > 0 && key[0] == '"' && ':' !in key
    requires body == "{" + key + ":" + rest
    requires rest != [] && rest[0] != ' '
    requires quoted ==> rest[0] == '"' && StrToUL(rest[1..], 16) == v
    requires !quoted ==> rest[0] != '"' && StrToUL(rest, 10) == v
    ensures ValueU32(body, |key| + 2) == v
  {
    SuffixAfterColon(body, key, rest);
    ValueAt(body, |key| + 2, rest, v, quoted);
  }

  /** The number read at `at`, where the text `rest` starts. */
  lemma ValueAt(body: CStr, at: nat, rest: string, v: u32, quoted: bool)
    requires at <= |body| && body[at..] == rest && rest != []
    requires quoted ==> rest[0] == '"' && StrToUL(rest[1..], 16) == v
    requires !quoted ==> rest[0] != '"' && StrToUL(rest, 10) == v
    ensures ValueU32(body, at) == v
  {
    if quoted {
      assert rest == "\"" + rest[1..];
      QuotedValue(body, at, rest[1..], v);
    } else {
      PlainValue(body, at, rest, v);
    }
  }

  lemma SuffixAfterColon(body: CStr, key: CStr, rest: string)
    requires body == "{" + key + ":" + rest
    ensures body[|key| + 2..] == rest
  {
  }

  lemma QuotedValue(body: CStr, at: nat, t: string, v: u32)
    requires at <= |body| && body[at..] == "\"" + t && StrToUL(t, 16) == v
    ensures ValueU32(body, at) == v
  {
    HexTail(body, at, t);
    ValueQuoted(body, at);
  }

  lemma PlainValue(body: CStr, at: nat, t: string, v: u32)
    requires at <= |body| && body[at..] == t && t != [] && t[0] != '"' && StrToUL(t, 10) == v
    ensures ValueU32(body, at) == v
  {
    assert body[at] == t[0];
    ValuePlain(body, at);
  }

  lemma HexTail(body: CStr, at: nat, t: string)
    requires at <= |body| && body[at..] == "\"" + t
    ensures at < |body| && body[at] == '"' && body[at + 1..] == t
  {
    assert body[at..][1..] == t;
  }

  /** The value read from an opening quote. */
  lemma ValueQuoted(body: CStr, at: nat)
    requires at < |body| && body[at] == '"'
    ensures ValueU32(body, at) == StrToUL(body[at + 1..], 16)
  {
  }

  /** The value read from anything else. */
  lemma ValuePlain(body: CStr, at: nat)
    requires at < |body| && body[at] != '"'
    ensures ValueU32(body, at) == StrToUL(body[at..], 10)
  {
  }

  /** Posting one heartbeat period sets exactly that period. */
  lemma PostHeartbeat(c: EspCfg, body: CStr, rest: string, v: u16)
    requires body == "{" + KeyHbMs + ":" + rest
    requires rest != [] && rest[0] != ' ' && rest[0] != '"' && StrToUL(rest, 10) == v as u32
    ensures ApplyPost(c, body).hbMs == v
  {
    PostedValue(body, KeyHbMs, rest, v as u32, false);
    Low16Field(c, body, v);
  }

  lemma Low16Field(c: EspCfg, body: CStr, v: u16)
    requires ParseU32(body, KeyHbMs) == Some(v as u32)
    ensures ApplyPost(c, body).hbMs == v
  {
    assert FindKey(body, KeyHbMs).Some?;
    var p := ParseU16(body, KeyHbMs);
    SmallModulus(v as int, 0x1_0000);
    assert p.value == v;
    var r := ApplyPost(c, body);
    assert r.hbMs == Or(p, c.hbMs);
  }

  lemma SmallModulus(x: int, m: int)
    requires 0 <= x < m
    ensures x % m == x
  {
  }
}

=== FILE: web_static.dfy ===
/** Page serving in components/webserver/webserver.cpp: the catch-all
    `root_get` that maps a URI onto the SPIFFS file system, its content type
    table, and the fixed HTML pages behind `require_role`.

    The file system is the set of paths `fopen` can open; the role is the
    one `role_from_auth` found for the request. Streaming the file body is
    not modelled: a served response names the file and its type. */
module WebStatic {
  import opened Common
  import opened CText
  import opened WebAuth

  /** What the handler sends. */
  datatype Response =
    | Found(location: CStr)                   // 302 with a Location header
    | UriTooLong                              // 414
    | NotFound                                // 404
    | Serve(path: CStr, contentType: CStr)    // 200 with the file's contents
    | Refused(gate: Gate)                     // what `require_role` sent

  /** The SPIFFS mount point. */
  const Prefix: CStr := "/spiffs"

  /** `sizeof(path)`, the path buffer including its NUL. */
  const PathCap := 256

  /** The page URIs `root_get` sends to `/login` even when the file exists. */
  const GuardedUris: set<CStr> := {"/super_user.html", "/admin", "/diag"}

  /** The file a URI names: `/` is the login page, anything else is
      looked up under the mount point when the joined path fits the buffer. */
  function StaticPath(uri: CStr): (p: Option<CStr>)
    ensures uri == "/" ==> p == Some("/spiffs/login.html")
    ensures uri != "/" ==> (p.Some? <==> |Prefix| + |uri| < PathCap)
    ensures p.Some? ==> |p.value| < PathCap && StartsWith(p.value, Prefix)
    ensures p.Some? && uri != "/" ==> p.value[|Prefix|..] == uri
  {
    if uri == "/" then Some("/spiffs/login.html")
    else if |Prefix| + |uri| >= PathCap then None
    else Some(Prefix + uri)
  }

  /** Distinct URIs other than `/` name distinct files. */
  lemma StaticPathInjective(a: CStr, b: CStr)
    requires a != "/" && b != "/"
    requires StaticPath(a).Some? && StaticPath(a) == StaticPath(b)
    ensures a == b
  {
    assert a == StaticPath(a).value[|Prefix|..];
  }

  /** The types `root_get` knows, keyed by the text from the last dot on. */
  const MimeTypes: map<CStr, CStr> := map[
    ".html" := "text/html",
    ".css" := "text/css",
    ".js" := "application/javascript",
    ".png" := "image/png",
    ".jpg" := "image/jpeg",
    ".jpeg" := "image/jpeg",
    ".svg" := "image/svg+xml"]

  const DefaultType: CStr := "text/plain"

  /** The `strcmp` chain on the extension. */
  function TypeOfExtension(ext: CStr): (ct: CStr)
    ensures ct == (if ext in MimeTypes then MimeTypes[ext] else DefaultType)
  {
    if ext == ".html" then "text/html"
    else if ext == ".css" then "text/css"
    else if ext == ".js" then "application/javascript"
    else if ext == ".png" then "image/png"
    else if ext == ".jpg" || ext == ".jpeg" then "image/jpeg"
    else if ext == ".svg" then "image/svg+xml"
    else DefaultType
  }

  /** The type from the text after the last `.` of the path (`strrchr`). */
  function ContentType(path: CStr): (ct: CStr)
    ensures '.' !in path ==> ct == DefaultType
    ensures ct == DefaultType || ct in MimeTypes.Values
  {
    match LastIndex(path, '.')
    case None => DefaultType
    case Some(i) => TypeOfExtension(path[i..])
  }

  /** Only the final extension counts: whatever comes before it, a path
      ending in `ext` has that extension's type. */
  lemma {:induction false} ExtensionDecides(base: CStr, ext: CStr)
    requires |ext| >= 1 && ext[0] == '.' && '.' !in ext[1..]
    ensures ContentType(base + ext) == TypeOfExtension(ext)
  {
    var p := base + ext;
    assert forall j :: |base| < j < |p| ==> p[j] == ext[1..][j - |base| - 1];
    assert p[|base|] == '.';
    var i := LastIndex(p, '.').value;
    assert i == |base|;
    assert p[i..] == ext;
  }

  /** The mount point has no dot, so it never changes a type. */
  lemma PrefixKeepsType(uri: CStr)
    ensures ContentType(Prefix + uri) == ContentType(uri)
  {
    var p := Prefix + uri;
    match LastIndex(uri, '.')
    case None =>
      assert forall j :: 0 <= j < |p| ==> p[j] != '.' by {
        forall j | 0 <= j < |p| ensures p[j] != '.' {
          if j >= |Prefix| { assert p[j] == uri[j - |Prefix|]; }
        }
      }
    case Some(k) =>
      assert p[|Prefix| + k] == '.';
      assert forall j :: |Prefix| + k < j < |p| ==> p[j] == uri[j - |Prefix|];
      assert LastIndex(p, '.') == Some(|Prefix| + k);
      assert p[|Prefix| + k..] == uri[k..];
  }

  /** `root_get`, registered for `/` and for the catch-all wildcard route. */
  function RootGet(cur: Role, uri: CStr, files: set<CStr>): (resp: Response)
    ensures cur != RoleNone ==> resp == Found(UriForRole(cur))
    ensures cur == RoleNone && uri in GuardedUris ==> resp == Found("/login")
    ensures resp.Found? ==> cur != RoleNone || uri in GuardedUris
    ensures resp == UriTooLong <==>
      cur == RoleNone && uri !in GuardedUris && StaticPath(uri).None?
    ensures resp == NotFound <==>
      cur == RoleNone && uri !in GuardedUris && StaticPath(uri).Some? && StaticPath(uri).value !in files
    ensures resp.Serve? ==>
      cur == RoleNone && Some(resp.path) == StaticPath(uri) && resp.path in files
      && resp.contentType == ContentType(resp.path)
    ensures !resp.Refused?
  {
    if cur != RoleNone then Found(UriForRole(cur))
    else if uri in GuardedUris then Found("/login")
    else match StaticPath(uri) {
      case None => UriTooLong
      case Some(path) =>
        if path !in files then NotFound
        else Serve(path, ContentType(path))
    }
  }

  /** A signed-in visitor is sent to a page that lets them in. */
  lemma RootRedirectAdmits(cur: Role, uri: CStr, files: set<CStr>)
    requires cur != RoleNone
    ensures var loc := RootGet(cur, uri, files).location;
            loc in GatedGets && RequireRole(cur, GatedGets[loc], loc) == Admit
  {
    LandingPageAdmitsRole(cur);
  }

  /** A served file has the type of the URI's own extension. */
  lemma ServedTypeFollowsUri(uri: CStr, files: set<CStr>)
    requires uri != "/"
    requires RootGet(RoleNone, uri, files).Serve?
    ensures RootGet(RoleNone, uri, files).contentType == ContentType(uri)
  {
    PrefixKeepsType(uri);
  }

  /** The fixed HTML pages and the file each one sends. */
  const PageFiles: map<CStr, CStr> := map[
    "/login" := "/spiffs/login.html",
    "/diag" := "/spiffs/diag.html",
    "/ble-data" := "/spiffs/ble.html",
    "/admin" := "/spiffs/admin.html",
    "/super_user.html" := "/spiffs/super_user.html"]

  /** `login_get`, `diag_get`, `ble_get`, `admin_get`, `super_user_get`:
      the role gate where there is one, then `send_file`. */
  function PageGet(uri: CStr, have: Role, files: set<CStr>): (resp: Response)
    requires uri in PageFiles
    ensures resp.Serve? <==>
      (uri !in GatedGets || Rank(have) >= Rank(GatedGets[uri])) && PageFiles[uri] in files
    ensures resp.Serve? ==> resp == Serve(PageFiles[uri], "text/html")
    ensures resp.Refused? <==> uri in GatedGets && Rank(have) < Rank(GatedGets[uri])
    ensures resp.Refused? ==> resp.gate == RedirectToLogin
  {
    var g := if uri in GatedGets then RequireRole(have, GatedGets[uri], uri) else Admit;
    if g != Admit then
      assert uri[1] != 'a' || uri[2] != 'p' by { PagesAreNotApi(uri); }
      Refused(g)
    else if PageFiles[uri] !in files then NotFound
    else Serve(PageFiles[uri], "text/html")
  }

  lemma PagesAreNotApi(uri: CStr)
    requires uri in PageFiles
    ensures |uri| >= 3 && (uri[1] != 'a' || uri[2] != 'p')
  {
  }

  /** Every role may open its own landing page once the file is there. */
  lemma LandingPageServes(r: Role, files: set<CStr>)
    requires PageFiles[UriForRole(r)] in files
    ensures PageGet(UriForRole(r), r, files).Serve?
  {
    LandingPageAdmitsRole(r);
  }
}
